=== FILE: README.md ===
# Map-style synthesis, modelled in Dafny

This project models `StyleGenerator`, the map-style synthesis engine of the
map editor. The engine takes three inputs:

- a base style, which is a renderer style document with `insertionPoints` and `labelLayerStyle` metadata;
- a map definition, which holds map layers over datasets;
- a base URL.

From these it produces the style the renderer draws:

- **Sources.** It builds one vector source per dataset the map layers reference, merges them over the base style's sources, and prefixes every `url`, tile and `data` that does not start with "http" with the base URL, verbatim.
- **Data layers.** It builds one data layer per map layer. The paint block has a quantile colour ramp, a fade-in opacity and, for circles, a quantile radius ramp.
- **Label layers.** It builds a label layer for each map layer whose label attribute is not `null`.
- **Insertion.** It splices each generated layer into the base style's layer list, before the anchor layer named for its category, or before the last layer when no layer carries that anchor.

Exceptions become `Err` values of a `Result`. `undefined` becomes `None` or a
dedicated constructor. Zooms, quantiles and radii are `real`s.

The modules follow the steps of the engine:

| file | module | models |
|---|---|---|
| results.dfy | `Results` | the errors the generator throws, `Option`, `Result` |
| style-types.dfy | `StyleTypes` | base styles, map definitions, datasets, sources, layers, paint and expressions |
| lookup.dfy | `Lookup` | `find`/`findIndex`, `datasetForLayer`, attribute lookup |
| tile-urls.dfy | `TileUrls` | `expandRelativeTileURL`, `expandTileSources` |
| source-builder.dfy | `SourceBuilder` | `generateSources`, `generateMapStyleSource`, the merge of sources |
| ramps.dfy | `Ramps` | `colorRampForLayer`, `radiusRampForLayer`, the renderer's linear interpolation |
| layer-builder.dfy | `LayerBuilder` | `generateMapLayer`, `paintStyleForLayer`, `generateLabelLayer` |
| layer-insertion.dfy | `LayerInsertion` | `insertMapLayer` with `findIndex` and `splice` semantics |
| style-generator.dfy | `StyleGenerator` | `generateMapStyle` |

### Behaviour modelled as the code has it

In several places the code behaves in ways that may look unintended. The
model follows the code in each case:

- **Missing anchor.** When no layer has the anchor id, `findIndex` gives -1. `splice(-1, 0, x)` then inserts the layer before the last layer. It does not fail and does not append. An empty list gets the layer at index 0.
- **Missing label template.** A base style without `labelLayerStyle` makes synthesis fail after the data layers are built. This happens even when no layer has a label.
- **Undefined label attribute.** The label filter is `!== null`, so an undefined label attribute still gets a label layer, with `text-field` "{undefined}".
- **Non-http URLs.** The absolute test is `startsWith('http')`, so a URL with another scheme, such as `mapbox://…`, is treated as relative and gets the base URL prefixed.
- **Opacity.** Opacity goes through `||`, so an opacity of 0 is read as 1.
- **Zoom.** The map zoom also goes through `||`, so a zoom of 0 falls back to the base style's zoom.
- **Unsupported layer type.** A layer type other than fill, circle or line gets a data layer with no paint block. It is not rejected.
- **Radius ramp.** The radius ramp has no fallback for an attribute without quantiles. That failure is `Err(MissingQuantiles)`.
- **Missing dataset.** A map layer whose dataset is missing fails with `Err(DatasetNotFound)`. In the code this is the `TypeError` from reading `dataset.minZoom`.

The renderer's linear `interpolate` is modelled as a reference evaluator,
`Ramps.Evaluate`. The opacity fade-in and the radius ramp are proved to
draw what they intend under it.

## Model

| member | source | states |
|---|---|---|
| Lookup.FindIndex | src/shared/style-generator/style-generator.ts:238 | `findIndex`: the index of the first matching element, or -1 exactly when no element matches |
| Lookup.Find | src/shared/style-generator/style-generator.ts:145 | `find`: the first matching element, or `undefined` exactly when none matches |
| Lookup.DatasetForLayer | src/shared/style-generator/style-generator.ts:144-146 | the dataset found is the first in the definition with the layer's dataset id; none is found exactly when no dataset has that id |
| Lookup.AttributeForField | src/shared/style-generator/style-generator.ts:190 | the attribute found is the dataset's first with the requested field; none is found exactly when no attribute has it |
| TileUrls.ExpandRelativeTileUrl | src/shared/style-generator/style-generator.ts:97-99 | a URL starting with "http" is kept; any other URL becomes the base URL followed by the URL, with no separator added or removed |
| TileUrls.ExpandAbsoluteIdempotent | src/shared/style-generator/style-generator.ts:97-99 | expanding an absolute URL twice gives the URL back |
| TileUrls.ExpandIdempotentUnderAbsoluteBase | src/shared/style-generator/style-generator.ts:97-99 | with an absolute base URL every expansion is absolute, so expanding twice equals expanding once |
| TileUrls.ExpandTwiceRelative | src/shared/style-generator/style-generator.ts:97-99 | with a relative base URL, a relative URL gets the base prefixed twice, so expansion is not idempotent in general |
| TileUrls.ExpandAll | src/shared/style-generator/style-generator.ts:83 | the tile list keeps its length and each tile URL is expanded in place |
| TileUrls.ExpandSource | src/shared/style-generator/style-generator.ts:74-89 | only `url`, each of `tiles`, and `data` are rewritten, each only when present; the type and every other field are kept |
| TileUrls.ExpandTileSources | src/shared/style-generator/style-generator.ts:72-95 | the key set is unchanged and every source under it is expanded field by field |
| TileUrls.ExpandAllIdempotent | src/shared/style-generator/style-generator.ts:83 | with an absolute base URL, expanding a tile list a second time changes nothing |
| TileUrls.ExpandTileSourcesIdempotent | src/shared/style-generator/style-generator.ts:72-95 | with an absolute base URL, expanding all sources a second time changes nothing |
| SourceBuilder.MapStyleSource | src/shared/style-generator/style-generator.ts:65-70 | a vector source with no tiles, no data and no other field, whose URL is the dataset id followed by "/index.json" |
| SourceBuilder.GenerateSources | src/shared/style-generator/style-generator.ts:59-70 | exactly one entry per distinct dataset id of the layers, each the vector source with URL `<datasetId>/index.json` |
| SourceBuilder.MergeSources | src/shared/style-generator/style-generator.ts:29 | object spread: the generated sources win on a key clash and every other base key survives |
| SourceBuilder.MergedSources | src/shared/style-generator/style-generator.ts:29 | after the merge every referenced dataset has its generated vector source and every other base source is kept |
| Ramps.Reverse | src/shared/style-generator/style-generator.ts:197 | element i of the reversal is element \|s\|-1-i of the input |
| Ramps.Interleave | src/shared/style-generator/style-generator.ts:201 | the map-and-concat of quantiles with outputs: twice as many stops, stop pair i is (quantile i, output i) |
| Ramps.PaletteColour | src/shared/style-generator/style-generator.ts:201 | the colour at index i of the palette, and `undefined` for an index past its end |
| Ramps.EffectivePalette | src/shared/style-generator/style-generator.ts:196-197 | the palette the ramp reads has the palette's length; it is the palette itself when not inverted and the palette read from the end when inverted |
| Ramps.ColorRamp | src/shared/style-generator/style-generator.ts:187-213 | fails exactly when no attribute has the layer's field; otherwise "red" without quantiles, or an interpolation on the attribute pairing quantile i with palette colour i, counted from the end when inverted and `undefined` past the palette |
| Ramps.RadiusAt | src/shared/style-generator/style-generator.ts:224-227 | the radius at index i is 3 + 3.4 * i, never below MIN_POINT_RADIUS and, up to index 5, never above MAX_POINT_RADIUS |
| Ramps.RadiusLadder | src/shared/style-generator/style-generator.ts:11-12 | the radius at index i is 3 + 17/5 * i: strictly increasing, at least 3, at most 20 up to index 5, and 16.6 at the fifth quantile, so 20 is never reached |
| Ramps.RadiusRamp | src/shared/style-generator/style-generator.ts:215-235 | succeeds exactly when the attribute exists and has quantiles; fails with the missing attribute or the missing quantiles otherwise; on success pairs quantile i with radius 3 + 17/5 * i |
| Ramps.EvaluateAtQuantile | src/shared/style-generator/style-generator.ts:201 | over strictly increasing quantiles, the interpolation evaluates to output i exactly at quantile i |
| Ramps.RadiusRampEvaluation | src/shared/style-generator/style-generator.ts:227-234 | a feature whose value is quantile i is drawn with radius 3 + 17/5 * i |
| Ramps.ColorRampInPlace | src/shared/style-generator/style-generator.ts:196-197 | as written: the same ramp, plus the palette left reversed in place when inverted |
| Ramps.InPlaceReversalToggles | src/shared/style-generator/style-generator.ts:196-201 | a second as-written call on the same inverted layer yields the non-inverted colours and restores the palette |
| Ramps.InPlaceReversalExample | src/shared/style-generator/style-generator.ts:196-201 | palette ["a", "b"] inverted, quantiles [1, 2]: the first call colours quantile 1 "b", the second "a" |
| LayerBuilder.OpacityOrDefault | src/shared/style-generator/style-generator.ts:158 | `opacity \|\| 1`: an absent opacity and an opacity of 0 read as 1, any other opacity is kept |
| LayerBuilder.OpacityFade | src/shared/style-generator/style-generator.ts:156-158 | a linear interpolation on the zoom with stops (minZoom, 0) and (minZoom + 0.5, opacity or 1); OpacityFadeIn and OpacityFadeBetween say what it draws |
| LayerBuilder.OpacityFadeIn | src/shared/style-generator/style-generator.ts:156-158 | the fade-in is 0 up to the dataset's minimum zoom and, from half a level later, the opacity as `opacity \|\| 1` reads it (OpacityOrDefault) |
| LayerBuilder.OpacityFadeBetween | src/shared/style-generator/style-generator.ts:156-158 | between its two stops the fade-in rises linearly, as 2 * (zoom - minZoom) * opacity |
| LayerBuilder.IsSupportedType | src/shared/style-generator/style-generator.ts:152-172 | the layer types that get a paint block are exactly "fill", "circle" and "line" |
| LayerBuilder.PaintStyleForLayer | src/shared/style-generator/style-generator.ts:148-185 | a fill, circle or line paint block with the colour ramp, fade-in opacity and (circle) radius ramp or (line) fixed width; no block for other types; fails exactly when a ramp it needs fails, with the colour ramp's error when that fails and the radius ramp's otherwise |
| LayerBuilder.GenerateMapLayer | src/shared/style-generator/style-generator.ts:101-115 | fails with `DatasetNotFound` when the dataset is missing, and otherwise exactly when the paint block fails, with the paint block's error; on success the `datalayer-` layer on the dataset's source, source layer "data", the dataset's zoom range, a `has` filter, and a paint block exactly for supported types |
| LayerBuilder.LabelText | src/shared/style-generator/style-generator.ts:121 | the label attribute as a template literal renders it: "null", "undefined", or the field name |
| LayerBuilder.GenerateLabelLayer | src/shared/style-generator/style-generator.ts:117-142 | no layer exactly for a `null` label attribute; otherwise the `labellayer-` symbol layer with the template's paint and layout plus `text-field`, a text offset for circles and line placement for lines; every template key the layer's type does not write is kept, including `text-offset` and `symbol-placement` for types that do not set them |
| LayerInsertion.AnchorIndex | src/shared/style-generator/style-generator.ts:238 | the index of the first layer with the anchor id, or -1 when there is none or no anchor |
| LayerInsertion.AnchorIndexIsFindIndex | src/shared/style-generator/style-generator.ts:238 | the anchor lookup equals `findIndex` with the predicate "has the anchor id" |
| LayerInsertion.SpliceStart | src/shared/style-generator/style-generator.ts:239 | `splice`'s start: a negative start counts back from the end, clamped at 0; a start past the end is clamped to the end |
| LayerInsertion.Splice | src/shared/style-generator/style-generator.ts:239 | one longer, with the element at the start and the rest of the list before and after it unchanged |
| LayerInsertion.InsertMapLayer | src/shared/style-generator/style-generator.ts:237-240 | `insertMapLayer`: one longer, the new layer at the insertion index, the layers before it unchanged and the layers from it on shifted by one |
| LayerInsertion.InsertKeepsBase | src/shared/style-generator/style-generator.ts:237-240 | every layer already in the list stays in it, in its order |
| LayerInsertion.InsertionIndex | src/shared/style-generator/style-generator.ts:237-240 | the layer lands at the anchor's index, or just before the last layer when the anchor is missing |
| LayerInsertion.InsertKeepsOrder | src/shared/style-generator/style-generator.ts:237-240 | the new layer sits at the insertion index, removing it gives back the old list, and the list gains exactly that layer |
| LayerInsertion.InsertBeforeAnchor | src/shared/style-generator/style-generator.ts:237-240 | the new layer lands immediately before the first layer carrying the anchor id, and nothing else moves |
| LayerInsertion.InsertWithMissingAnchor | src/shared/style-generator/style-generator.ts:237-240 | with the anchor missing, the new layer goes just before the last layer, which stays last; in an empty list it is the only layer |
| LayerInsertion.InsertMapLayerSplit | src/shared/style-generator/style-generator.ts:237-240 | the list after an insertion is the old list up to the insertion index, the new layer, then the rest of the old list |
| LayerInsertion.InsertLandsBefore | src/shared/style-generator/style-generator.ts:237-240 | when some layer carries the anchor id, the new layer comes before a layer carrying it |
| LayerInsertion.InsertAtFront | src/shared/style-generator/style-generator.ts:237-240 | when the first layer carries the anchor id, the new layer goes in front of the whole list |
| LayerInsertion.AnchorIndexAfterInsert | src/shared/style-generator/style-generator.ts:237-240 | inserting a layer without the id `a` moves the first layer carrying `a` one place on when the insertion lands at or before it, and leaves it in place otherwise |
| LayerInsertion.BeforeAnchorAfterInsert | src/shared/style-generator/style-generator.ts:237-240 | a layer before the first layer carrying `a` is still before it after inserting a layer without that id, at its old index or one further on |
| LayerInsertion.InsertAfterPrefix | src/shared/style-generator/style-generator.ts:237-240 | a layer inserted before a found anchor comes after every layer that preceded the anchor |
| LayerInsertion.InsertedBeforeAnchor | src/shared/style-generator/style-generator.ts:237-240 | a layer without the anchor id, inserted before a found anchor, takes the anchor's old index and the anchor moves past it |
| LayerInsertion.InsertionIndexAfterInsert | src/shared/style-generator/style-generator.ts:237-240 | after inserting a layer that does not carry the anchor id into a non-empty list, the next insertion lands one place further on, so successive insertions before one anchor keep their order |
| LayerInsertion.InsertAll | src/shared/style-generator/style-generator.ts:37-41 | a loop of insertions, each item before its own anchor in the list the previous one produced, adds one layer per item |
| LayerInsertion.InsertAllKeepsBase | src/shared/style-generator/style-generator.ts:37-41 | a loop of insertions keeps every layer already in the list, in its order |
| LayerInsertion.InsertAllContents | src/shared/style-generator/style-generator.ts:37-41 | a loop of insertions adds exactly the inserted layers, as a multiset |
| LayerInsertion.InsertAllAfterPrefix | src/shared/style-generator/style-generator.ts:37-41 | when no item carries the id `a`, an item inserted before a found `a` ends up after every layer that preceded `a` in the starting list |
| LayerInsertion.InsertAllSameAnchor | src/shared/style-generator/style-generator.ts:37-41 | when no item carries the id `a`, two items inserted before the same found `a` keep their order |
| StyleGenerator.AnchorFor | src/shared/style-generator/style-generator.ts:39 | the anchor of a category, absent exactly when the insertion points do not name it |
| StyleGenerator.DataLayers | src/shared/style-generator/style-generator.ts:37-41 | the data layer of each map layer in order, or the error of the first map layer that cannot be built, every earlier one building |
| StyleGenerator.InsertDataLayers | src/shared/style-generator/style-generator.ts:37-41 | the data-layer loop fails exactly when some data layer fails, with the first such error, and otherwise adds one layer per map layer |
| StyleGenerator.InsertDataLayersContents | src/shared/style-generator/style-generator.ts:37-41 | the data-layer loop adds exactly the built data layers and keeps the layers already there in their order |
| StyleGenerator.InsertDataLayersPlacement | src/shared/style-generator/style-generator.ts:37-41 | each data layer whose type has an anchor naming a layer of the starting list ends up before a layer carrying that id |
| StyleGenerator.InsertDataLayersAsInsertAll | src/shared/style-generator/style-generator.ts:37-41 | a successful data-layer loop is the insertion loop over the built data layers, each before the anchor of its layer type |
| StyleGenerator.InsertDataLayersAfterPrefix | src/shared/style-generator/style-generator.ts:37-41 | when no `datalayer-` id is an anchor id, each data layer whose anchor is found comes after every layer that preceded that anchor |
| StyleGenerator.InsertDataLayersSameAnchor | src/shared/style-generator/style-generator.ts:37-41 | when no `datalayer-` id is an anchor id, data layers with the same found anchor keep their map-definition order |
| StyleGenerator.LabelledLayers | src/shared/style-generator/style-generator.ts:49 | the filter keeps at most as many map layers, and every one it keeps has a label attribute that is not `null` |
| StyleGenerator.LabelledLayersMembers | src/shared/style-generator/style-generator.ts:49 | a map layer is kept exactly when it is in the list and its label attribute is not `null` |
| StyleGenerator.LabelledLayersSingle | src/shared/style-generator/style-generator.ts:49 | the filter keeps a single map layer exactly when its label attribute is not `null` |
| StyleGenerator.LabelledLayersAppend | src/shared/style-generator/style-generator.ts:49 | the filter of a concatenation is the concatenation of the filters; with LabelledLayersSingle this fixes the order and multiplicity of what is kept |
| StyleGenerator.LabelLayers | src/shared/style-generator/style-generator.ts:49-50 | one label layer for each filtered map layer, in the filter's order |
| StyleGenerator.InsertLabelLayers | src/shared/style-generator/style-generator.ts:49-53 | the label-layer loop adds one layer per labelled map layer |
| StyleGenerator.InsertLabelLayersContents | src/shared/style-generator/style-generator.ts:49-53 | the label-layer loop adds exactly the label layers of the labelled map layers and keeps the layers already there in their order |
| StyleGenerator.InsertLabelLayersPlacement | src/shared/style-generator/style-generator.ts:49-53 | in a non-empty list, the label layers land as one block, in filter order, at the insertion index the first of them gets, when no label layer carries the anchor id |
| StyleGenerator.GenerateMapStyle | src/shared/style-generator/style-generator.ts:20-57 | the result records the map definition in its metadata and keeps the base style's insertion points and label template |
| StyleGenerator.GenerateMapStyleFailures | src/shared/style-generator/style-generator.ts:37-47 | synthesis fails exactly when a data layer fails (first error) or, after that, when the base style has no label template, labelled layers or not |
| StyleGenerator.GenerateMapStyleViewport | src/shared/style-generator/style-generator.ts:27-28 | on success, the definition's zoom when set and non-zero, else the base zoom; the definition's centre when set, else the base centre |
| StyleGenerator.GenerateMapStyleSources | src/shared/style-generator/style-generator.ts:29-30 | on success, one expanded vector source per referenced dataset, replacing a base source of that id, and every other base source expanded |
| StyleGenerator.GenerateMapStyleLayers | src/shared/style-generator/style-generator.ts:37-54 | when every data layer builds and a label template exists, synthesis succeeds and its layers are the base layers, one data layer per map layer and one label layer per labelled map layer, and nothing else; the base layers appear in their original order |
| StyleGenerator.GenerateMapStyleDataPlacement | src/shared/style-generator/style-generator.ts:37-41 | on success, each data layer whose type has an anchor naming a base layer comes before a layer carrying that id in the final list |
| StyleGenerator.GenerateMapStyleDataAfterPrefix | src/shared/style-generator/style-generator.ts:37-54 | on success, when no `datalayer-` id is an anchor id, each data layer whose anchor names a base layer comes after every base layer before that anchor |
| StyleGenerator.GenerateMapStyleDataSameAnchor | src/shared/style-generator/style-generator.ts:37-54 | on success, when no `datalayer-` id is an anchor id, data layers whose anchor names the same base layer keep their map-definition order |
| StyleGenerator.GenerateMapStyleLabelPlacement | src/shared/style-generator/style-generator.ts:37-54 | on success, the final list is the data-loop result with the label layers spliced in as one block, in map-definition order, at the insertion index of the "label" anchor, when no label layer carries that id |
| StyleGenerator.GenerateMapStyleScenario | src/shared/style-generator/style-generator.ts:37-54 | with anchors fill X, line L and label Y, a labelled fill layer and an unlabelled line layer give: fill data, X, line data, L, fill label, Y |
| StyleGenerator.GenerateMapStyleMissingAnchorScenario | src/shared/style-generator/style-generator.ts:37-54 | without a line anchor, the line data layer lands before the last base layer: fill data, X, line data, fill label, Y |

## Left out

- Mutation of the caller's objects. The code writes the viewport, sources, metadata and layers into the base style object in place and returns that object. If a later data layer throws, the earlier insertions stay in place. The model returns a new style and has no partial state after an error.
- Aliasing. When two map layers share one palette array, reversing one reverses the other. The result's `metadata.mapDefinition` is the caller's map-definition object, whose inverted palettes the colour ramps then reverse, so the definition returned in the style carries reversed palettes. The model does not represent object identity and records the unchanged definition.
- Floating point. Radii and opacity stops are exact reals. For the six indices 0 to 5, the double computed for 3 + 17/5 * i is the nearest double to the exact radius (3, 6.4, 9.8, 13.2, 16.6, 20). Rounding of `minZoom + 0.5` and of user-supplied values is not modelled.
- The reference evaluator covers only the linear `interpolate` the ramps use. The exponential line-width function (base 1.3) is kept as a constant and is not evaluated.
- JSON shape. Object spread and `hasOwnProperty` become optional fields of `Source`, whose `url`, `tiles` and `data` are strings.
- Non-string source fields. The code passes `data` (and `url`, and each tile) to `expandRelativeTileURL` whenever the field is present, and that calls `startsWith` on it. An inline GeoJSON `data` object, or a field present with the value `undefined`, therefore makes `generateMapStyle` throw a `TypeError`. The model cannot represent such a field, so it has no error for this case.
- Style fields the generator does not touch, other than sources, are not modelled. Base layers carry only an id and an opaque property map.
- `metadata || {}`. The metadata object is always present in the model. Absent insertion points read as an empty mapping, as in the code.
- Zoom and centre use `||`. A centre array is always truthy, so `Option` models it exactly. For zoom, and for the layer opacity in `opacity || 1`, only 0 counts as falsy, because `NaN` does not exist among reals; the code reads a `NaN` zoom as the base zoom and a `NaN` opacity as 1.
- StyleGenerator.GenerateMapStyleLabelPlacement: stated only when no label layer's id equals the "label" anchor. If one did, the label layers after it would be inserted before it, and the block would be split. InsertLabelLayersPlacement also needs a non-empty list: with an empty list and no anchor, each label layer would go before the previous one. Inside `generateMapStyle` the list is empty only when there are no map layers, and then there are no label layers either.
- StyleGenerator.GenerateMapStyleDataPlacement: stated only for data layers whose anchor names a base layer. A data layer with no anchor, or with an anchor no layer carries, goes before the last layer at the time it is inserted (InsertWithMissingAnchor). Later layers can then come after it.
- StyleGenerator.GenerateMapStyleDataAfterPrefix: stated only when no `datalayer-` id is an anchor id. If a data layer carried an anchor id, `findIndex` would find it before the base layer of that id, and later data layers with that anchor would go in before it. When that data layer sits before the base layer of that id, they can land ahead of base layers that precede the anchor.
- StyleGenerator.GenerateMapStyleDataSameAnchor: stated only when no `datalayer-` id is an anchor id, for the same reason. A later data layer whose anchor is an earlier data layer's id would go in before that earlier layer.
- StyleGenerator.InsertDataLayersAfterPrefix and StyleGenerator.InsertDataLayersSameAnchor carry the same hypothesis, as do LayerInsertion.InsertAllAfterPrefix and LayerInsertion.InsertAllSameAnchor, which need that no item carries the anchor id.
- The file-ingester tests, the map-metadata editor form and the icon registry are not part of this model. They are I/O, UI plumbing and foreign calls.

## Findings

| source | as written | input that shows it | evidently intended | confidence | as-written member | corrected member |
|---|---|---|---|---|---|---|
| src/shared/style-generator/style-generator.ts:196-197 | `colorStops.reverse()` reverses the layer's palette in place, so the palette an inverted layer keeps after one synthesis is the reversed one | an inverted layer with palette ["a", "b"] and quantiles [1, 2], synthesised twice: quantile 1 is "b" the first time and "a" the second | an inverted layer reads its palette from the end on every call, leaving the palette as it was | not executed | Ramps.ColorRampInPlace (Ramps.InPlaceReversalToggles, Ramps.InPlaceReversalExample) | Ramps.ColorRamp |

=== FILE: layer-builder.dfy ===
/** Construction of the data layer and the label layer of one map layer
    (`generateMapLayer`, `paintStyleForLayer`, `generateLabelLayer`). */
module LayerBuilder {
  import opened Results
  import opened StyleTypes
  import opened Lookup
  import opened Ramps

  /** The fixed line width: 2 at zoom 10 to 20 at zoom 20, exponent base 1.3. */
  const LINE_WIDTH: ZoomFunction := ZoomFunction(1.3, [(10.0, 2.0), (20.0, 20.0)])

  /** `layer.opacity || 1`: an absent opacity and an opacity of 0 both read as 1. */
  function OpacityOrDefault(opacity: Option<real>): (r: real)
    ensures opacity.None? ==> r == 1.0
    ensures opacity == Some(0.0) ==> r == 1.0
    ensures opacity.Some? && opacity.value != 0.0 ==> r == opacity.value
  {
    if opacity.Some? && opacity.value != 0.0 then opacity.value else 1.0
  }

  /** The fade-in shared by every layer type: `["interpolate", ["linear"],
      ["zoom"], minZoom, 0, minZoom + 0.5, opacity || 1]`. */
  function OpacityFade(minZoom: real, opacity: Option<real>): (r: Ramp)
    ensures r.Interpolate? && r.input == Zoom && |r.stops| == 4
    ensures StopInput(r.stops, 0) == Num(minZoom) && StopOutput(r.stops, 0) == Num(0.0)
    ensures StopInput(r.stops, 1) == Num(minZoom + 0.5) && StopOutput(r.stops, 1) == Num(OpacityOrDefault(opacity))
  {
    Interpolate(Zoom, [Num(minZoom), Num(0.0), Num(minZoom + 0.5), Num(OpacityOrDefault(opacity))])
  }

  /** The layer is invisible up to its dataset's minimum zoom, reaches its
      opacity (1 when absent or 0) half a zoom level later, and keeps it above. */
  lemma OpacityFadeIn(minZoom: real, opacity: Option<real>, zoom: real)
    ensures Evaluate(OpacityFade(minZoom, opacity).stops, minZoom) == Some(0.0)
    ensures Evaluate(OpacityFade(minZoom, opacity).stops, minZoom + 0.5) == Some(OpacityOrDefault(opacity))
    ensures zoom <= minZoom ==> Evaluate(OpacityFade(minZoom, opacity).stops, zoom) == Some(0.0)
    ensures minZoom + 0.5 <= zoom ==> Evaluate(OpacityFade(minZoom, opacity).stops, zoom) == Some(OpacityOrDefault(opacity))
  {
    var stops := OpacityFade(minZoom, opacity).stops;
    assert stops[2..] == [Num(minZoom + 0.5), Num(OpacityOrDefault(opacity))];
  }

  /** Between its two stops the fade-in is the straight line from 0 to the
      layer's opacity. */
  lemma OpacityFadeBetween(minZoom: real, opacity: Option<real>, zoom: real)
    requires minZoom < zoom < minZoom + 0.5
    ensures Evaluate(OpacityFade(minZoom, opacity).stops, zoom) == Some(2.0 * (zoom - minZoom) * OpacityOrDefault(opacity))
  {
    var stops := OpacityFade(minZoom, opacity).stops;
    var rise := (zoom - minZoom) * OpacityOrDefault(opacity);
    assert Evaluate(stops, zoom) == Some(Lerp(minZoom, 0.0, minZoom + 0.5, OpacityOrDefault(opacity), zoom));
    assert Lerp(minZoom, 0.0, minZoom + 0.5, OpacityOrDefault(opacity), zoom) == rise / 0.5;
  }

  /** The layer types that get a paint block: fills, circles and lines. */
  function IsSupportedType(layerType: string): (r: bool)
    ensures r <==> layerType in {"fill", "circle", "line"}
  {
    layerType == "fill" || layerType == "circle" || layerType == "line"
  }

  /** `paintStyleForLayer`: a paint block per supported layer type, with the
      colour ramp, the fade-in opacity and, for circles, the radius ramp; no
      paint block (`undefined`) for any other type. Fails when a ramp fails. */
  function PaintStyleForLayer(layer: MapLayer, dataset: Dataset): (r: Result<Option<Paint>>)
    ensures !IsSupportedType(layer.layerType) ==> r == Ok(None)
    ensures IsSupportedType(layer.layerType) && layer.layerType != "circle" ==> (r.Ok? <==> ColorRamp(layer, dataset).Ok?)
    ensures layer.layerType == "circle" ==> (r.Ok? <==> ColorRamp(layer, dataset).Ok? && RadiusRamp(layer, dataset).Ok?)
    ensures IsSupportedType(layer.layerType) && AttributeForField(dataset, layer.datasetAttribute).None? ==>
      r == Err(AttributeNotFound(layer.datasetAttribute))
    ensures r.Ok? && IsSupportedType(layer.layerType) ==> r.value.Some?
    ensures r.Err? ==> r.error == if ColorRamp(layer, dataset).Err? then ColorRamp(layer, dataset).error
                                 else RadiusRamp(layer, dataset).error
    ensures r.Ok? && layer.layerType == "fill" ==>
      r.value == Some(FillPaint(ColorRamp(layer, dataset).value, "white", OpacityFade(dataset.minZoom, layer.opacity)))
    ensures r.Ok? && layer.layerType == "circle" ==>
      r.value == Some(CirclePaint(ColorRamp(layer, dataset).value, RadiusRamp(layer, dataset).value, OpacityFade(dataset.minZoom, layer.opacity)))
    ensures r.Ok? && layer.layerType == "line" ==>
      r.value == Some(LinePaint(ColorRamp(layer, dataset).value, LINE_WIDTH, OpacityFade(dataset.minZoom, layer.opacity)))
  {
    if layer.layerType == "fill" then
      var color :- ColorRamp(layer, dataset);
      Ok(Some(FillPaint(color, "white", OpacityFade(dataset.minZoom, layer.opacity))))
    else if layer.layerType == "circle" then
      var color :- ColorRamp(layer, dataset);
      var radius :- RadiusRamp(layer, dataset);
      Ok(Some(CirclePaint(color, radius, OpacityFade(dataset.minZoom, layer.opacity))))
    else if layer.layerType == "line" then
      var color :- ColorRamp(layer, dataset);
      Ok(Some(LinePaint(color, LINE_WIDTH, OpacityFade(dataset.minZoom, layer.opacity))))
    else
      Ok(None)
  }

  /** `generateMapLayer`: the data layer `datalayer-<layerId>` reading source
      layer "data" of the layer's dataset source, with the dataset's zoom
      range and a filter on the presence of the visualised attribute. Fails
      when the dataset is missing or its paint block cannot be built. */
  function GenerateMapLayer(layer: MapLayer, datasets: seq<Dataset>): (r: Result<Layer>)
    ensures DatasetForLayer(datasets, layer).None? ==> r == Err(DatasetNotFound(layer.datasetId))
    ensures DatasetForLayer(datasets, layer).Some? ==>
      (r.Ok? <==> PaintStyleForLayer(layer, DatasetForLayer(datasets, layer).value).Ok?)
    ensures DatasetForLayer(datasets, layer).Some? && r.Err? ==>
      r.error == PaintStyleForLayer(layer, DatasetForLayer(datasets, layer).value).error
    ensures r.Ok? ==>
      var dataset := DatasetForLayer(datasets, layer).value;
      && r.value.DataLayer?
      && r.value.id == DATA_LAYER_PREFIX + layer.layerId
      && r.value.source == layer.datasetId
      && r.value.sourceLayer == DATA_LAYER_ID
      && r.value.layerType == layer.layerType
      && r.value.minzoom == dataset.minZoom && r.value.maxzoom == dataset.maxZoom
      && r.value.filter == Has(layer.datasetAttribute)
      && r.value.paint == PaintStyleForLayer(layer, dataset).value
      && (r.value.paint.Some? <==> IsSupportedType(layer.layerType))
  {
    var dataset := DatasetForLayer(datasets, layer);
    if dataset.None? then Err(DatasetNotFound(layer.datasetId))
    else
      var paint :- PaintStyleForLayer(layer, dataset.value);
      Ok(DataLayer(DATA_LAYER_PREFIX + layer.layerId, layer.datasetId, DATA_LAYER_ID, layer.layerType,
                   dataset.value.minZoom, dataset.value.maxZoom, paint, Has(layer.datasetAttribute)))
  }

  /** The label attribute as a template literal renders it. */
  function LabelText(attribute: LabelAttribute): (r: string)
    ensures attribute == NullLabel ==> r == "null"
    ensures attribute == UndefinedLabel ==> r == "undefined"
    ensures attribute.LabelField? ==> r == attribute.field
  {
    match attribute
    case NullLabel => "null"
    case UndefinedLabel => "undefined"
    case LabelField(field) => field
  }

  /** `generateLabelLayer`: no layer for a `null` label attribute; otherwise
      the symbol layer `labellayer-<layerId>` whose layout and paint copy the
      template, with `text-field` set to `{<label attribute>}`, a text offset
      [0, 2.5] for circles and line placement for lines. */
  function GenerateLabelLayer(layer: MapLayer, template: LabelLayerStyle): (r: Option<Layer>)
    ensures r.None? <==> layer.labelAttribute == NullLabel
    ensures r.Some? ==>
      && r.value.LabelLayer?
      && r.value.id == LABEL_LAYER_PREFIX + layer.layerId
      && r.value.layerType == "symbol"
      && r.value.source == layer.datasetId
      && r.value.sourceLayer == DATA_LAYER_ID
      && r.value.filter == Has(layer.datasetAttribute)
      && r.value.labelPaint == template.paint
      && r.value.layout.Keys == template.layout.Keys + {"text-field"}
           + (if layer.layerType == "circle" then {"text-offset"} else {})
           + (if layer.layerType == "line" then {"symbol-placement"} else {})
      && r.value.layout["text-field"] == Str("{" + LabelText(layer.labelAttribute) + "}")
      && (layer.layerType == "circle" ==> r.value.layout["text-offset"] == Arr([Num(0.0), Num(2.5)]))
      && (layer.layerType == "line" ==> r.value.layout["symbol-placement"] == Str("line"))
      && forall k :: k in template.layout && k != "text-field"
                     && !(layer.layerType == "circle" && k == "text-offset")
                     && !(layer.layerType == "line" && k == "symbol-placement") ==>
           r.value.layout[k] == template.layout[k]
  {
    if layer.labelAttribute == NullLabel then None
    else
      var layout := template.layout["text-field" := Str("{" + LabelText(layer.labelAttribute) + "}")];
      var adjusted :=
        if layer.layerType == "circle" then layout["text-offset" := Arr([Num(0.0), Num(2.5)])]
        else if layer.layerType == "line" then layout["symbol-placement" := Str("line")]
        else layout;
      Some(LabelLayer(LABEL_LAYER_PREFIX + layer.layerId, adjusted, template.paint,
                      layer.datasetId, DATA_LAYER_ID, "symbol", Has(layer.datasetAttribute)))
  }
}

=== FILE: layer-insertion.dfy ===
/** Insertion of a generated layer before its anchor (`insertMapLayer`),
    with JavaScript's `findIndex` and `splice` semantics. */
module LayerInsertion {
  import opened Results
  import opened StyleTypes
  import opened Lookup

  /** `layers.findIndex(l => l.id === anchor)`: -1 when no layer has that id,
      and always -1 for an absent anchor (every layer has an id). */
  function AnchorIndex(layers: seq<Layer>, anchor: Option<string>): (r: int)
    ensures -1 <= r < |layers|
    ensures r >= 0 ==> anchor.Some? && layers[r].id == anchor.value && forall j :: 0 <= j < r ==> layers[j].id != anchor.value
    ensures anchor.None? ==> r == -1
    ensures r == -1 && anchor.Some? ==> forall j :: 0 <= j < |layers| ==> layers[j].id != anchor.value
  {
    if anchor.None? || |layers| == 0 then -1
    else if layers[0].id == anchor.value then 0
    else
      var k := AnchorIndex(layers[1..], anchor);
      if k == -1 then -1 else k + 1
  }

  /** The anchor lookup is `findIndex` with the predicate "has the anchor id". */
  lemma {:induction false} AnchorIndexIsFindIndex(layers: seq<Layer>, anchor: Option<string>)
    ensures AnchorIndex(layers, anchor) == FindIndex(layers, (l: Layer) => anchor.Some? && l.id == anchor.value)
    decreases |layers|
  {
    if anchor.Some? && |layers| > 0 && layers[0].id != anchor.value {
      AnchorIndexIsFindIndex(layers[1..], anchor);
    }
  }

  /** Where `splice(start, 0, x)` puts `x` in a list of length `length`: a
      negative start counts back from the end (clamped at 0), a start past
      the end is clamped to the end. */
  function SpliceStart(length: nat, start: int): (r: nat)
    ensures r <= length
    ensures 0 <= start <= length ==> r == start
    ensures start > length ==> r == length
    ensures start < 0 && length + start >= 0 ==> r == length + start
    ensures length + start < 0 ==> r == 0
  {
    if start < 0 then (if length + start < 0 then 0 else length + start)
    else if start > length then length
    else start
  }

  /** `s.splice(start, 0, x)`. */
  function Splice<T>(s: seq<T>, start: int, x: T): (r: seq<T>)
    ensures |r| == |s| + 1
    ensures r[SpliceStart(|s|, start)] == x
    ensures r[..SpliceStart(|s|, start)] == s[..SpliceStart(|s|, start)]
    ensures r[SpliceStart(|s|, start) + 1..] == s[SpliceStart(|s|, start)..]
  {
    var k := SpliceStart(|s|, start);
    assert s == s[..k] + s[k..];
    s[..k] + [x] + s[k..]
  }

  /** `insertMapLayer`: splice the layer in at the anchor's index. */
  function InsertMapLayer(anchor: Option<string>, layers: seq<Layer>, layer: Layer): (r: seq<Layer>)
    ensures |r| == |layers| + 1
    ensures r[InsertionIndex(anchor, layers)] == layer
    ensures r[..InsertionIndex(anchor, layers)] == layers[..InsertionIndex(anchor, layers)]
    ensures r[InsertionIndex(anchor, layers) + 1..] == layers[InsertionIndex(anchor, layers)..]
  {
    Splice(layers, AnchorIndex(layers, anchor), layer)
  }

  /** The index the new layer lands at: the anchor's index when the anchor is
      found, and just before the last layer when it is not (0 in an empty list). */
  function InsertionIndex(anchor: Option<string>, layers: seq<Layer>): (k: nat)
    ensures k <= |layers|
    ensures AnchorIndex(layers, anchor) >= 0 ==> k == AnchorIndex(layers, anchor)
    ensures AnchorIndex(layers, anchor) == -1 && |layers| > 0 ==> k == |layers| - 1
    ensures |layers| == 0 ==> k == 0
  {
    SpliceStart(|layers|, AnchorIndex(layers, anchor))
  }

  /** The new layer sits at the insertion index; every other layer keeps its
      relative order (removing the new layer gives back the old list); the
      list gains exactly the new layer. */
  lemma InsertKeepsOrder(anchor: Option<string>, layers: seq<Layer>, layer: Layer)
    ensures var r := InsertMapLayer(anchor, layers, layer);
      var k := InsertionIndex(anchor, layers);
      && r[k] == layer
      && r[..k] + r[k + 1..] == layers
      && multiset(r) == multiset(layers) + multiset{layer}
  {
    var r := InsertMapLayer(anchor, layers, layer);
    var k := InsertionIndex(anchor, layers);
    assert layers == layers[..k] + layers[k..];
    assert r == layers[..k] + [layer] + layers[k..];
  }

  /** With the first layer carrying the anchor id at index k = |prefix|, the
      new layer lands at k, immediately before the anchor layer, and the
      layers before and after it are unchanged. */
  lemma InsertBeforeAnchor(anchor: string, prefix: seq<Layer>, suffix: seq<Layer>, layer: Layer)
    requires |suffix| > 0 && suffix[0].id == anchor
    requires forall j :: 0 <= j < |prefix| ==> prefix[j].id != anchor
    ensures InsertMapLayer(Some(anchor), prefix + suffix, layer) == prefix + [layer] + suffix
  {
    var layers := prefix + suffix;
    assert layers[|prefix|] == suffix[0];
    assert AnchorIndex(layers, Some(anchor)) == |prefix|;
    assert layers[..|prefix|] == prefix && layers[|prefix|..] == suffix;
  }

  /** With the first layer carrying the anchor id, the new layer goes in front. */
  lemma InsertAtFront(anchor: string, layers: seq<Layer>, layer: Layer)
    requires |layers| > 0 && layers[0].id == anchor
    ensures InsertMapLayer(Some(anchor), layers, layer) == [layer] + layers
  {
    InsertMapLayerSplit(Some(anchor), layers, layer);
    assert layers[..0] == [] && layers[0..] == layers;
  }

  /** With no layer carrying the anchor id, `findIndex` yields -1 and
      `splice(-1, 0, x)` puts the new layer just before the last layer, which
      stays last. */
  lemma InsertWithMissingAnchor(anchor: Option<string>, layers: seq<Layer>, layer: Layer)
    requires anchor.None? || forall j :: 0 <= j < |layers| ==> layers[j].id != anchor.value
    ensures |layers| == 0 ==> InsertMapLayer(anchor, layers, layer) == [layer]
    ensures |layers| > 0 ==>
      && InsertMapLayer(anchor, layers, layer)[|layers| - 1] == layer
      && InsertMapLayer(anchor, layers, layer)[|layers|] == layers[|layers| - 1]
      && InsertMapLayer(anchor, layers, layer)[..|layers| - 1] == layers[..|layers| - 1]
  {
    var r := InsertMapLayer(anchor, layers, layer);
    if |layers| > 0 {
      assert r[|layers|..][0] == layers[|layers| - 1..][0];
    }
  }

  /** `f` maps each position of `a` to a position of `b` holding the same
      element, in increasing order: `a` is `b` with some elements removed. */
  ghost predicate EmbeddedBy<T>(a: seq<T>, b: seq<T>, f: seq<nat>) {
    && |f| == |a|
    && (forall i :: 0 <= i < |f| ==> f[i] < |b| && b[f[i]] == a[i])
    && (forall i, j :: 0 <= i < j < |f| ==> f[i] < f[j])
  }

  /** `a` occurs in `b` in order, possibly with other elements in between. */
  ghost predicate IsSubsequence<T>(a: seq<T>, b: seq<T>) {
    exists f :: EmbeddedBy(a, b, f)
  }

  lemma SubsequenceRefl<T>(a: seq<T>)
    ensures IsSubsequence(a, a)
  {
    assert EmbeddedBy(a, a, seq(|a|, i => i));
  }

  lemma SubsequenceTrans<T>(a: seq<T>, b: seq<T>, c: seq<T>)
    requires IsSubsequence(a, b) && IsSubsequence(b, c)
    ensures IsSubsequence(a, c)
  {
    var f :| EmbeddedBy(a, b, f);
    var g :| EmbeddedBy(b, c, g);
    var h := seq(|a|, i requires 0 <= i < |a| => g[f[i]]);
    assert EmbeddedBy(a, c, h);
  }

  /** Inserting a layer keeps every layer already in the list, in order. */
  lemma InsertKeepsBase(anchor: Option<string>, layers: seq<Layer>, layer: Layer)
    ensures IsSubsequence(layers, InsertMapLayer(anchor, layers, layer))
  {
    InsertMapLayerSplit(anchor, layers, layer);
    SplicedKeepsBase(layers, InsertionIndex(anchor, layers), layer, InsertMapLayer(anchor, layers, layer));
  }

  /** Putting one element into a list keeps the list as a subsequence. */
  lemma SplicedKeepsBase<T>(s: seq<T>, q: nat, x: T, r: seq<T>)
    requires q <= |s|
    requires r == s[..q] + [x] + s[q..]
    ensures IsSubsequence(s, r)
  {
    var f := seq(|s|, i requires 0 <= i < |s| => if i < q then i else i + 1);
    forall i | 0 <= i < |s|
      ensures f[i] < |r| && r[f[i]] == s[i]
    {
      ShiftedIndex(s, q, x, r, i);
    }
    assert EmbeddedBy(s, r, f);
  }

  /** Some layer of the list carries the id. */
  ghost predicate HasLayerWithId(layers: seq<Layer>, id: string) {
    exists b :: b in layers && b.id == id
  }

  /** `d` comes before some layer carrying the anchor id. */
  ghost predicate LandsBefore(d: Layer, anchor: string, layers: seq<Layer>) {
    exists a: Layer :: a.id == anchor && IsSubsequence([d, a], layers)
  }

  lemma SubsequenceHasLayer(a: seq<Layer>, b: seq<Layer>, id: string)
    requires IsSubsequence(a, b) && HasLayerWithId(a, id)
    ensures HasLayerWithId(b, id)
  {
    var f :| EmbeddedBy(a, b, f);
    var x :| x in a && x.id == id;
    var i :| 0 <= i < |a| && a[i] == x;
    assert b[f[i]] == x;
  }

  lemma SubsequenceLandsBefore(d: Layer, anchor: string, a: seq<Layer>, b: seq<Layer>)
    requires LandsBefore(d, anchor, a) && IsSubsequence(a, b)
    ensures LandsBefore(d, anchor, b)
  {
    var x: Layer :| x.id == anchor && IsSubsequence([d, x], a);
    SubsequenceTrans([d, x], a, b);
  }

  /** When the list has a layer with the anchor id, the inserted layer comes
      before a layer carrying that id (InsertBeforeAnchor says it is the
      first such layer, immediately after the new one). */
  lemma InsertLandsBefore(anchor: string, layers: seq<Layer>, layer: Layer)
    requires HasLayerWithId(layers, anchor)
    ensures LandsBefore(layer, anchor, InsertMapLayer(Some(anchor), layers, layer))
  {
    var r := InsertMapLayer(Some(anchor), layers, layer);
    var x :| x in layers && x.id == anchor;
    var i :| 0 <= i < |layers| && layers[i] == x;
    var k := AnchorIndex(layers, Some(anchor));
    assert k >= 0;
    InsertMapLayerSplit(Some(anchor), layers, layer);
    var a := layers[k];
    assert r[k] == layer && r[k + 1] == a by {
      assert r == layers[..k] + [layer] + layers[k..];
    }
    PairSubsequence(r, k, k + 1);
  }

  /** Two elements of a list, in their order, form a subsequence of it. */
  lemma PairSubsequence<T>(b: seq<T>, p: nat, m: nat)
    requires p < m < |b|
    ensures IsSubsequence([b[p], b[m]], b)
  {
    var f := [p, m];
    assert forall i :: 0 <= i < 2 ==> f[i] < |b| && b[f[i]] == [b[p], b[m]][i];
    assert EmbeddedBy([b[p], b[m]], b, f);
  }

  /** An id some layer carries is found by `findIndex`. */
  lemma AnchorFound(layers: seq<Layer>, id: string)
    requires HasLayerWithId(layers, id)
    ensures AnchorIndex(layers, Some(id)) >= 0
  {
    var x :| x in layers && x.id == id;
    var i :| 0 <= i < |layers| && layers[i] == x;
  }

  /** Inserting a layer that does not carry the id `a`, at any anchor,
      moves the first layer carrying `a` one place on when the insertion
      lands at or before it, and leaves it in place otherwise. */
  lemma AnchorIndexAfterInsert(anchor: Option<string>, layers: seq<Layer>, x: Layer, a: string)
    requires AnchorIndex(layers, Some(a)) >= 0
    requires x.id != a
    ensures var q := InsertionIndex(anchor, layers);
      var k := AnchorIndex(layers, Some(a));
      AnchorIndex(InsertMapLayer(anchor, layers, x), Some(a)) == if q <= k then k + 1 else k
  {
    var q := InsertionIndex(anchor, layers);
    InsertMapLayerSplit(anchor, layers, x);
    if q <= AnchorIndex(layers, Some(a)) {
      AnchorAfterSplice(layers, q, x, InsertMapLayer(anchor, layers, x), a, AnchorIndex(layers, Some(a)));
    } else {
      AnchorBeforeSplice(layers, q, x, InsertMapLayer(anchor, layers, x), a, AnchorIndex(layers, Some(a)));
    }
  }

  /** The first layer carrying `a` moves one on when a layer without that
      id goes in at or before it. */
  lemma AnchorAfterSplice(s: seq<Layer>, q: nat, x: Layer, r: seq<Layer>, a: string, k: nat)
    requires q <= k < |s| && s[k].id == a && x.id != a
    requires forall j :: 0 <= j < k ==> s[j].id != a
    requires r == s[..q] + [x] + s[q..]
    ensures AnchorIndex(r, Some(a)) == k + 1
  {
    forall j | 0 <= j < k + 1
      ensures r[j].id != a
    {
      if j < q {
        ShiftedIndex(s, q, x, r, j);
      } else if q < j {
        ShiftedIndex(s, q, x, r, j - 1);
      }
    }
    ShiftedIndex(s, q, x, r, k);
    FirstWithId(r, a, k + 1);
  }

  /** The first layer carrying `a` stays put when a layer goes in after it. */
  lemma AnchorBeforeSplice(s: seq<Layer>, q: nat, x: Layer, r: seq<Layer>, a: string, k: nat)
    requires k < q <= |s| && s[k].id == a
    requires forall j :: 0 <= j < k ==> s[j].id != a
    requires r == s[..q] + [x] + s[q..]
    ensures AnchorIndex(r, Some(a)) == k
  {
    forall j | 0 <= j < k + 1
      ensures r[j] == s[j]
    {
      ShiftedIndex(s, q, x, r, j);
    }
    FirstWithId(r, a, k);
  }

  /** No layer carries `a` after a layer without that id goes in. */
  lemma AnchorMissingAfterSplice(s: seq<Layer>, q: nat, x: Layer, r: seq<Layer>, a: string)
    requires q <= |s| && x.id != a
    requires forall j :: 0 <= j < |s| ==> s[j].id != a
    requires r == s[..q] + [x] + s[q..]
    ensures AnchorIndex(r, Some(a)) == -1
  {
    forall j | 0 <= j < |r|
      ensures r[j].id != a
    {
      if j < q {
        ShiftedIndex(s, q, x, r, j);
      } else if q < j {
        ShiftedIndex(s, q, x, r, j - 1);
      }
    }
  }

  /** The first layer carrying `a` is at `t` when layer `t` carries it and
      no earlier one does. */
  lemma FirstWithId(r: seq<Layer>, a: string, t: nat)
    requires t < |r| && r[t].id == a
    requires forall j :: 0 <= j < t ==> r[j].id != a
    ensures AnchorIndex(r, Some(a)) == t
  {
  }

  /** A layer before the first layer carrying `a` stays before it when a
      layer that does not carry `a` is inserted anywhere: `j'` is where it
      now sits, one further on when the insertion went in before it. */
  lemma BeforeAnchorAfterInsert(anchor: Option<string>, layers: seq<Layer>, x: Layer, a: string, j: nat) returns (j': nat)
    requires 0 <= j < AnchorIndex(layers, Some(a))
    requires x.id != a
    ensures j' == j || j' == j + 1
    ensures j' < AnchorIndex(InsertMapLayer(anchor, layers, x), Some(a)) && InsertMapLayer(anchor, layers, x)[j'] == layers[j]
  {
    var q := InsertionIndex(anchor, layers);
    j' := if j < q then j else j + 1;
    AnchorIndexAfterInsert(anchor, layers, x, a);
    InsertMapLayerSplit(anchor, layers, x);
    ShiftedIndex(layers, q, x, InsertMapLayer(anchor, layers, x), j);
  }

  /** Where element `j` of a list sits once `x` is put in at index `q`. */
  lemma ShiftedIndex<T>(s: seq<T>, q: nat, x: T, r: seq<T>, j: nat)
    requires q <= |s| && j < |s|
    requires r == s[..q] + [x] + s[q..]
    ensures j < q ==> r[j] == s[j]
    ensures q <= j ==> r[j + 1] == s[j]
  {
    if j < q {
      assert r[j] == s[..q][j];
    } else {
      assert r[j + 1] == s[q..][j - q];
    }
  }

  /** With a layer whose id is not the anchor inserted at the insertion
      index of a non-empty list, the next insertion index is one further
      on: successive insertions before the same anchor keep their order. */
  lemma InsertionIndexAfterInsert(anchor: Option<string>, layers: seq<Layer>, x: Layer)
    requires |layers| > 0
    requires anchor.None? || x.id != anchor.value
    ensures InsertionIndex(anchor, InsertMapLayer(anchor, layers, x)) == InsertionIndex(anchor, layers) + 1
  {
    if AnchorIndex(layers, anchor) >= 0 {
      AnchorIndexAfterInsert(anchor, layers, x, anchor.value);
    } else if anchor.Some? {
      InsertMapLayerSplit(anchor, layers, x);
      AnchorMissingAfterSplice(layers, InsertionIndex(anchor, layers), x, InsertMapLayer(anchor, layers, x), anchor.value);
    }
  }

  /** The inserted list, written as the old prefix, the layer, and the old suffix. */
  lemma InsertMapLayerSplit(anchor: Option<string>, layers: seq<Layer>, layer: Layer)
    ensures var k := InsertionIndex(anchor, layers);
      InsertMapLayer(anchor, layers, layer) == layers[..k] + [layer] + layers[k..]
  {
    var r := InsertMapLayer(anchor, layers, layer);
    var k := InsertionIndex(anchor, layers);
    assert r == r[..k] + [r[k]] + r[k + 1..];
  }

  /** A layer inserted before a found anchor comes after every layer that
      preceded the anchor. */
  lemma InsertAfterPrefix(a: string, layers: seq<Layer>, d: Layer, j: nat)
    requires j < AnchorIndex(layers, Some(a))
    ensures IsSubsequence([layers[j], d], InsertMapLayer(Some(a), layers, d))
  {
    var r := InsertMapLayer(Some(a), layers, d);
    var q := InsertionIndex(Some(a), layers);
    InsertMapLayerSplit(Some(a), layers, d);
    ShiftedIndex(layers, q, d, r, j);
    PairSubsequence(r, j, q);
  }

  /** A layer inserted before a found anchor, and not carrying its id, sits
      where the anchor was, which is now before the anchor. */
  lemma InsertedBeforeAnchor(a: string, layers: seq<Layer>, d: Layer)
    requires AnchorIndex(layers, Some(a)) >= 0
    requires d.id != a
    ensures var r := InsertMapLayer(Some(a), layers, d);
      AnchorIndex(layers, Some(a)) < AnchorIndex(r, Some(a)) && r[AnchorIndex(layers, Some(a))] == d
  {
    AnchorIndexAfterInsert(Some(a), layers, d, a);
  }

  /** A loop of insertions: `items[t]` is inserted before `anchors[t]`, in
      order, each into the list the previous insertion produced. */
  function InsertAll(anchors: seq<Option<string>>, layers: seq<Layer>, items: seq<Layer>): (r: seq<Layer>)
    requires |anchors| == |items|
    ensures |r| == |layers| + |items|
    decreases |items|
  {
    if |items| == 0 then layers
    else InsertAll(anchors[1..], InsertMapLayer(anchors[0], layers, items[0]), items[1..])
  }

  /** A loop of insertions keeps every layer already in the list, in order. */
  lemma {:induction false} InsertAllKeepsBase(anchors: seq<Option<string>>, layers: seq<Layer>, items: seq<Layer>)
    requires |anchors| == |items|
    ensures IsSubsequence(layers, InsertAll(anchors, layers, items))
    decreases |items|
  {
    if |items| == 0 {
      SubsequenceRefl(layers);
    } else {
      var next := InsertMapLayer(anchors[0], layers, items[0]);
      InsertKeepsBase(anchors[0], layers, items[0]);
      InsertAllKeepsBase(anchors[1..], next, items[1..]);
      SubsequenceTrans(layers, next, InsertAll(anchors[1..], next, items[1..]));
    }
  }

  /** A loop of insertions adds exactly the inserted layers. */
  lemma {:induction false} InsertAllContents(anchors: seq<Option<string>>, layers: seq<Layer>, items: seq<Layer>)
    requires |anchors| == |items|
    ensures multiset(InsertAll(anchors, layers, items)) == multiset(layers) + multiset(items)
    decreases |items|
  {
    if |items| > 0 {
      var next := InsertMapLayer(anchors[0], layers, items[0]);
      InsertKeepsOrder(anchors[0], layers, items[0]);
      InsertAllContents(anchors[1..], next, items[1..]);
      assert items == [items[0]] + items[1..];
    }
  }

  /** When no inserted layer carries the id `a`, an item inserted before a
      found `a` comes after every layer that preceded `a` in the starting list. */
  lemma {:induction false} InsertAllAfterPrefix(anchors: seq<Option<string>>, layers: seq<Layer>, items: seq<Layer>, a: string, i: nat, j: nat)
    requires |anchors| == |items|
    requires forall t :: 0 <= t < |items| ==> items[t].id != a
    requires i < |items| && anchors[i] == Some(a)
    requires j < AnchorIndex(layers, Some(a))
    ensures IsSubsequence([layers[j], items[i]], InsertAll(anchors, layers, items))
    decreases i
  {
    if i == 0 {
      AfterPrefixHead(anchors, layers, items, a, j);
    } else {
      var next := InsertMapLayer(anchors[0], layers, items[0]);
      var j' := BeforeAnchorAfterInsert(anchors[0], layers, items[0], a, j);
      TailIndex(items, i);
      TailIndex(anchors, i);
      TailIdsDiffer(items, a);
      InsertAllAfterPrefix(anchors[1..], next, items[1..], a, i - 1, j');
    }
  }

  /** The first item, inserted before a found `a`, comes after every layer
      that preceded `a`; later insertions keep the order. */
  lemma AfterPrefixHead(anchors: seq<Option<string>>, layers: seq<Layer>, items: seq<Layer>, a: string, j: nat)
    requires |anchors| == |items| && |items| > 0 && anchors[0] == Some(a)
    requires j < AnchorIndex(layers, Some(a))
    ensures IsSubsequence([layers[j], items[0]], InsertAll(anchors, layers, items))
  {
    var next := InsertMapLayer(Some(a), layers, items[0]);
    InsertAfterPrefix(a, layers, items[0], j);
    InsertAllKeepsBase(anchors[1..], next, items[1..]);
    SubsequenceTrans([layers[j], items[0]], next, InsertAll(anchors[1..], next, items[1..]));
  }

  /** When no inserted layer carries the id `a`, two items inserted before
      the same found `a` keep their order. */
  lemma {:induction false} InsertAllSameAnchor(anchors: seq<Option<string>>, layers: seq<Layer>, items: seq<Layer>, a: string, i: nat, k: nat)
    requires |anchors| == |items|
    requires forall t :: 0 <= t < |items| ==> items[t].id != a
    requires i < k < |items| && anchors[i] == Some(a) && anchors[k] == Some(a)
    requires AnchorIndex(layers, Some(a)) >= 0
    ensures IsSubsequence([items[i], items[k]], InsertAll(anchors, layers, items))
    decreases i
  {
    if i == 0 {
      SameAnchorHead(anchors, layers, items, a, k);
    } else {
      var next := InsertMapLayer(anchors[0], layers, items[0]);
      AnchorStaysFound(anchors[0], layers, items[0], a);
      TailIndex(items, i);
      TailIndex(anchors, i);
      TailIndex(items, k);
      TailIndex(anchors, k);
      TailIdsDiffer(items, a);
      InsertAllSameAnchor(anchors[1..], next, items[1..], a, i - 1, k - 1);
    }
  }

  /** The first item, inserted before a found `a`, sits where `a` was and so
      before every layer that preceded the new position of `a`, among them
      any later item with the same anchor. */
  lemma SameAnchorHead(anchors: seq<Option<string>>, layers: seq<Layer>, items: seq<Layer>, a: string, k: nat)
    requires |anchors| == |items|
    requires forall t :: 0 <= t < |items| ==> items[t].id != a
    requires 0 < k < |items| && anchors[0] == Some(a) && anchors[k] == Some(a)
    requires AnchorIndex(layers, Some(a)) >= 0
    ensures IsSubsequence([items[0], items[k]], InsertAll(anchors, layers, items))
  {
    var next := InsertMapLayer(Some(a), layers, items[0]);
    InsertedBeforeAnchor(a, layers, items[0]);
    TailIndex(items, k);
    TailIndex(anchors, k);
    TailIdsDiffer(items, a);
    InsertAllAfterPrefix(anchors[1..], next, items[1..], a, k - 1, AnchorIndex(layers, Some(a)));
  }

  /** Inserting a layer that does not carry a found anchor id keeps that id found. */
  lemma AnchorStaysFound(anchor: Option<string>, layers: seq<Layer>, x: Layer, a: string)
    requires AnchorIndex(layers, Some(a)) >= 0
    requires x.id != a
    ensures AnchorIndex(InsertMapLayer(anchor, layers, x), Some(a)) >= 0
  {
    AnchorIndexAfterInsert(anchor, layers, x, a);
  }

  /** A non-empty list, split into its head and the rest, before a concatenation. */
  lemma HeadAppend<T>(a: seq<T>, b: seq<T>)
    requires |a| > 0
    ensures (a + b)[0] == a[0] && (a + b)[1..] == a[1..] + b
  {
  }

  lemma TailIndex<T>(s: seq<T>, t: nat)
    requires 0 < t < |s|
    ensures s[1..][t - 1] == s[t]
  {
  }

  lemma TailIdsDiffer(items: seq<Layer>, a: string)
    requires |items| > 0
    requires forall t :: 0 <= t < |items| ==> items[t].id != a
    ensures forall t :: 0 <= t < |items[1..]| ==> items[1..][t].id != a
  {
  }
}

=== FILE: lookup.dfy ===
/** `Array.prototype.findIndex` and `Array.prototype.find`, and the two
    lookups the generator performs with them: a layer's dataset and a
    dataset's attribute. */
module Lookup {
  import opened Results
  import opened StyleTypes

  /** Index of the first element satisfying `p`, or -1 when none does. */
  function FindIndex<T>(s: seq<T>, p: T -> bool): (r: int)
    ensures -1 <= r < |s|
    ensures r >= 0 ==> p(s[r]) && forall j :: 0 <= j < r ==> !p(s[j])
    ensures r == -1 <==> forall j :: 0 <= j < |s| ==> !p(s[j])
  {
    if |s| == 0 then -1
    else if p(s[0]) then 0
    else
      var k := FindIndex(s[1..], p);
      if k == -1 then -1 else k + 1
  }

  /** The first element satisfying `p`, or `None` (`undefined`) when none does. */
  function Find<T>(s: seq<T>, p: T -> bool): (r: Option<T>)
    ensures r.None? <==> forall j :: 0 <= j < |s| ==> !p(s[j])
    ensures r.Some? ==> exists k :: 0 <= k < |s| && s[k] == r.value && p(s[k]) && forall j :: 0 <= j < k ==> !p(s[j])
  {
    var k := FindIndex(s, p);
    if k < 0 then None else Some(s[k])
  }

  /** `datasetForLayer`: the first dataset of the map definition whose id is
      the layer's dataset id. */
  function DatasetForLayer(datasets: seq<Dataset>, layer: MapLayer): (r: Option<Dataset>)
    ensures r.None? <==> forall d :: d in datasets ==> d.id != layer.datasetId
    ensures r.Some? ==> r.value in datasets && r.value.id == layer.datasetId
    ensures r.Some? ==> exists k :: 0 <= k < |datasets| && datasets[k] == r.value
                                    && forall j :: 0 <= j < k ==> datasets[j].id != layer.datasetId
  {
    Find(datasets, (d: Dataset) => d.id == layer.datasetId)
  }

  /** The first attribute of `dataset` whose field is `field`. */
  function AttributeForField(dataset: Dataset, field: string): (r: Option<Attribute>)
    ensures r.None? <==> forall a :: a in dataset.dataAttributes ==> a.field != field
    ensures r.Some? ==> r.value in dataset.dataAttributes && r.value.field == field
    ensures r.Some? ==> exists k :: 0 <= k < |dataset.dataAttributes| && dataset.dataAttributes[k] == r.value
                                    && forall j :: 0 <= j < k ==> dataset.dataAttributes[j].field != field
  {
    Find(dataset.dataAttributes, (a: Attribute) => a.field == field)
  }
}

=== FILE: ramps.dfy ===
/** Data-driven colour and radius ramps (`colorRampForLayer`,
    `radiusRampForLayer`), and the renderer's reading of a linear
    interpolation, against which the ramps are checked. */
module Ramps {
  import opened Results
  import opened StyleTypes
  import opened Lookup

  /** The sequence in reverse order. */
  function Reverse<T>(s: seq<T>): (r: seq<T>)
    ensures |r| == |s|
    ensures forall i :: 0 <= i < |s| ==> r[i] == s[|s| - 1 - i]
  {
    if |s| == 0 then [] else Reverse(s[1..]) + [s[0]]
  }

  lemma ReverseReverse<T>(s: seq<T>)
    ensures Reverse(Reverse(s)) == s
  {
  }

  /** The input value of stop `i` in a flat stop list. */
  function StopInput(stops: seq<Value>, i: nat): Value
    requires 2 * i + 1 < |stops|
  {
    stops[2 * i]
  }

  /** The output value of stop `i` in a flat stop list. */
  function StopOutput(stops: seq<Value>, i: nat): Value
    requires 2 * i + 1 < |stops|
  {
    stops[2 * i + 1]
  }

  /** `quantiles.map((q, i) => [q, outputs[i]]).reduce(concat, [])`: the flat
      stop list pairing each quantile with the output at the same index. */
  function Interleave(quantiles: seq<real>, outputs: seq<Value>): (r: seq<Value>)
    requires |outputs| == |quantiles|
    ensures |r| == 2 * |quantiles|
    ensures forall i :: 0 <= i < |quantiles| ==> StopInput(r, i) == Num(quantiles[i]) && StopOutput(r, i) == outputs[i]
  {
    if |quantiles| == 0 then []
    else
      var rest := Interleave(quantiles[1..], outputs[1..]);
      var r := [Num(quantiles[0]), outputs[0]] + rest;
      assert forall i :: 1 <= i < |quantiles| ==> StopInput(r, i) == StopInput(rest, i - 1) && StopOutput(r, i) == StopOutput(rest, i - 1);
      r
  }

  /** The colour a palette contributes at index `i`: an index past the end of
      the palette reads `undefined`. */
  function PaletteColour(colours: seq<string>, i: nat): (r: Value)
    ensures i < |colours| ==> r == Str(colours[i])
    ensures |colours| <= i ==> r == Undefined
  {
    if i < |colours| then Str(colours[i]) else Undefined
  }

  /** The palette as the ramp reads it: reversed when the layer is inverted. */
  function EffectivePalette(layer: MapLayer): (r: seq<string>)
    ensures |r| == |layer.palette|
    ensures !layer.paletteInverted ==> r == layer.palette
    ensures layer.paletteInverted ==> forall i :: 0 <= i < |r| ==> r[i] == layer.palette[|r| - 1 - i]
  {
    if layer.paletteInverted then Reverse(layer.palette) else layer.palette
  }

  /** `colorRampForLayer`, without the in-place palette reversal. Fails when
      no attribute of the dataset has the layer's field; with quantiles, pairs
      quantile i with palette colour i (reversed palette when inverted);
      without, is the constant "red". */
  function ColorRamp(layer: MapLayer, dataset: Dataset): (r: Result<Ramp>)
    ensures r.Err? <==> AttributeForField(dataset, layer.datasetAttribute).None?
    ensures r.Err? ==> r.error == AttributeNotFound(layer.datasetAttribute)
    ensures r.Ok? && AttributeForField(dataset, layer.datasetAttribute).value.quantiles5.None? ==> r.value == Literal(Str("red"))
    ensures r.Ok? && AttributeForField(dataset, layer.datasetAttribute).value.quantiles5.Some? ==>
      var q := AttributeForField(dataset, layer.datasetAttribute).value.quantiles5.value;
      var p := layer.palette;
      && r.value.Interpolate?
      && r.value.input == GetAttribute(layer.datasetAttribute)
      && |r.value.stops| == 2 * |q|
      && (forall i :: 0 <= i < |q| ==> StopInput(r.value.stops, i) == Num(q[i]))
      && (forall i :: 0 <= i < |q| && i < |p| && !layer.paletteInverted ==> StopOutput(r.value.stops, i) == Str(p[i]))
      && (forall i :: 0 <= i < |q| && i < |p| && layer.paletteInverted ==> StopOutput(r.value.stops, i) == Str(p[|p| - 1 - i]))
      && (forall i :: |p| <= i < |q| ==> StopOutput(r.value.stops, i) == Undefined)
  {
    var attribute := AttributeForField(dataset, layer.datasetAttribute);
    if attribute.None? then Err(AttributeNotFound(layer.datasetAttribute))
    else if attribute.value.quantiles5.None? then Ok(Literal(Str("red")))
    else
      var q := attribute.value.quantiles5.value;
      Ok(Interpolate(GetAttribute(layer.datasetAttribute), Interleave(q, QuantileColours(layer, |q|))))
  }

  /** The colours paired with `n` quantiles, read from the effective palette:
      palette order, reversed order when inverted, `undefined` past its end. */
  function QuantileColours(layer: MapLayer, n: nat): (r: seq<Value>)
    ensures |r| == n
    ensures forall i :: 0 <= i < n && i < |layer.palette| && !layer.paletteInverted ==> r[i] == Str(layer.palette[i])
    ensures forall i :: 0 <= i < n && i < |layer.palette| && layer.paletteInverted ==> r[i] == Str(layer.palette[|layer.palette| - 1 - i])
    ensures forall i :: |layer.palette| <= i < n ==> r[i] == Undefined
  {
    var colours := EffectivePalette(layer);
    seq(n, i requires 0 <= i < n => PaletteColour(colours, i))
  }

  /** The radius paired with the quantile at index `i`: the range
      [MIN_POINT_RADIUS, MAX_POINT_RADIUS] split into five equal steps. */
  function RadiusAt(i: nat): (r: real)
    ensures r == 3.0 + 3.4 * (i as real)
    ensures MIN_POINT_RADIUS <= r
    ensures i <= 5 ==> r <= MAX_POINT_RADIUS
  {
    MIN_POINT_RADIUS + (MAX_POINT_RADIUS - MIN_POINT_RADIUS) / 5.0 * (i as real)
  }

  /** The radius ladder: 3 + 17/5 * i, strictly increasing, never below 3, at
      most 20 up to index 5, and 16.6 at the fifth quantile (index 4). */
  lemma RadiusLadder(i: nat, j: nat)
    ensures RadiusAt(i) == 3.0 + 3.4 * (i as real)
    ensures i < j ==> RadiusAt(i) < RadiusAt(j)
    ensures 3.0 <= RadiusAt(i)
    ensures i <= 5 ==> RadiusAt(i) <= 20.0
    ensures i < 5 ==> RadiusAt(i) <= 16.6
    ensures RadiusAt(4) == 16.6
  {
  }

  /** `radiusRampForLayer`: fails when no attribute has the layer's field, or
      when the attribute has no quantiles (there is no fallback); otherwise
      pairs quantile i with the radius 3 + 17/5 * i. */
  function RadiusRamp(layer: MapLayer, dataset: Dataset): (r: Result<Ramp>)
    ensures r.Ok? <==> AttributeForField(dataset, layer.datasetAttribute).Some?
                       && AttributeForField(dataset, layer.datasetAttribute).value.quantiles5.Some?
    ensures AttributeForField(dataset, layer.datasetAttribute).None? ==> r == Err(AttributeNotFound(layer.datasetAttribute))
    ensures AttributeForField(dataset, layer.datasetAttribute).Some? && AttributeForField(dataset, layer.datasetAttribute).value.quantiles5.None? ==>
      r == Err(MissingQuantiles(layer.datasetAttribute))
    ensures r.Ok? ==>
      var q := AttributeForField(dataset, layer.datasetAttribute).value.quantiles5.value;
      && r.value.Interpolate?
      && r.value.input == GetAttribute(layer.datasetAttribute)
      && |r.value.stops| == 2 * |q|
      && (forall i :: 0 <= i < |q| ==> StopInput(r.value.stops, i) == Num(q[i]) && StopOutput(r.value.stops, i) == Num(3.0 + 3.4 * (i as real)))
  {
    var attribute := AttributeForField(dataset, layer.datasetAttribute);
    if attribute.None? then Err(AttributeNotFound(layer.datasetAttribute))
    else if attribute.value.quantiles5.None? then Err(MissingQuantiles(layer.datasetAttribute))
    else
      var q := attribute.value.quantiles5.value;
      Ok(Interpolate(GetAttribute(layer.datasetAttribute), Interleave(q, seq(|q|, i requires 0 <= i < |q| => Num(RadiusAt(i))))))
  }

  /** The point at `x` on the straight line through (x0, y0) and (x1, y1). */
  function Lerp(x0: real, y0: real, x1: real, y1: real, x: real): real
    requires x0 < x1
  {
    y0 + (x - x0) * (y1 - y0) / (x1 - x0)
  }

  /** The renderer's reading of a numeric linear interpolation at input `x`:
      the first output at or below the first input, the last output at or
      above the last input, and the straight line between the two stops that
      bracket `x`. `None` when the stops are not numeric pairs. */
  function Evaluate(stops: seq<Value>, x: real): Option<real>
    decreases |stops|
  {
    if |stops| < 2 || !stops[0].Num? || !stops[1].Num? then None
    else if |stops| == 2 || x <= stops[0].n then Some(stops[1].n)
    else if |stops| < 4 || !stops[2].Num? || !stops[3].Num? then None
    else if x < stops[2].n then Some(Lerp(stops[0].n, stops[1].n, stops[2].n, stops[3].n, x))
    else Evaluate(stops[2..], x)
  }

  /** Over strictly increasing quantiles with numeric outputs, the stop list
      evaluates to output i exactly at quantile i. */
  lemma {:induction false} EvaluateAtQuantile(quantiles: seq<real>, outputs: seq<Value>, i: nat)
    requires |outputs| == |quantiles| && i < |quantiles|
    requires forall j :: 0 <= j < |outputs| ==> outputs[j].Num?
    requires forall j, k :: 0 <= j < k < |quantiles| ==> quantiles[j] < quantiles[k]
    ensures Evaluate(Interleave(quantiles, outputs), quantiles[i]) == Some(outputs[i].n)
  {
    var stops := Interleave(quantiles, outputs);
    assert StopInput(stops, 0) == Num(quantiles[0]) && StopOutput(stops, 0) == outputs[0];
    if i > 0 {
      assert StopInput(stops, 1) == Num(quantiles[1]) && StopOutput(stops, 1) == outputs[1];
      assert stops[2..] == Interleave(quantiles[1..], outputs[1..]);
      EvaluateAtQuantile(quantiles[1..], outputs[1..], i - 1);
    }
  }

  /** With strictly increasing quantiles, a circle at quantile i is drawn with
      radius 3 + 17/5 * i. */
  lemma RadiusRampEvaluation(layer: MapLayer, dataset: Dataset, i: nat)
    requires RadiusRamp(layer, dataset).Ok?
    requires AttributeForField(dataset, layer.datasetAttribute).value.quantiles5.Some?
    requires var q := AttributeForField(dataset, layer.datasetAttribute).value.quantiles5.value;
      i < |q| && forall j, k :: 0 <= j < k < |q| ==> q[j] < q[k]
    ensures var q := AttributeForField(dataset, layer.datasetAttribute).value.quantiles5.value;
      Evaluate(RadiusRamp(layer, dataset).value.stops, q[i]) == Some(3.0 + 3.4 * (i as real))
  {
    var q := AttributeForField(dataset, layer.datasetAttribute).value.quantiles5.value;
    var outputs := seq(|q|, j requires 0 <= j < |q| => Num(RadiusAt(j)));
    EvaluateAtQuantile(q, outputs, i);
  }

  /** `colorRampForLayer` as written: `colorStops.reverse()` reverses the
      layer's palette in place, so besides the ramp the call leaves the layer
      with a new palette. */
  function ColorRampInPlace(layer: MapLayer, dataset: Dataset): (r: Result<(Ramp, seq<string>)>)
    ensures r.Ok? <==> ColorRamp(layer, dataset).Ok?
    ensures r.Ok? ==> r.value.0 == ColorRamp(layer, dataset).value
    ensures r.Ok? && layer.paletteInverted ==> r.value.1 == Reverse(layer.palette)
    ensures r.Ok? && !layer.paletteInverted ==> r.value.1 == layer.palette
  {
    var ramp :- ColorRamp(layer, dataset);
    Ok((ramp, EffectivePalette(layer)))
  }

  /** A second as-written call on the same inverted layer sees the palette the
      first call reversed and reverses it back: it yields the colours of the
      non-inverted layer and restores the original palette. */
  lemma InPlaceReversalToggles(layer: MapLayer, dataset: Dataset)
    requires layer.paletteInverted && ColorRamp(layer, dataset).Ok?
    ensures var second := ColorRampInPlace(layer.(palette := ColorRampInPlace(layer, dataset).value.1), dataset);
      && second.Ok?
      && second.value.0 == ColorRamp(layer.(paletteInverted := false), dataset).value
      && second.value.1 == layer.palette
  {
    ReverseReverse(layer.palette);
  }

  /** The toggle on a concrete layer: palette ["a", "b"], inverted, quantiles
      [1, 2]. The first call colours quantile 1 with "b", the second with "a". */
  lemma InPlaceReversalExample()
    ensures var dataset := Dataset("d", 0.0, 10.0, [Attribute("f", Some([1.0, 2.0]))]);
      var layer := MapLayer("l", "d", "f", "fill", ["a", "b"], true, None, NullLabel);
      var first := ColorRampInPlace(layer, dataset);
      var second := ColorRampInPlace(layer.(palette := first.value.1), dataset);
      && first.Ok? && second.Ok?
      && StopOutput(first.value.0.stops, 0) == Str("b")
      && StopOutput(second.value.0.stops, 0) == Str("a")
  {
    var dataset := Dataset("d", 0.0, 10.0, [Attribute("f", Some([1.0, 2.0]))]);
    var layer := MapLayer("l", "d", "f", "fill", ["a", "b"], true, None, NullLabel);
    assert AttributeForField(dataset, "f") == Some(Attribute("f", Some([1.0, 2.0])));
    InPlaceReversalToggles(layer, dataset);
  }
}

=== FILE: results.dfy ===
/** Outcomes of the style generator's operations.

    Where the generator throws, the model returns `Err` with a `StyleError`
    naming the cause; where it yields `undefined` for a missing value, the
    model yields `None`. */
module Results {

  /** The reasons a synthesis aborts. */
  datatype StyleError =
    | DatasetNotFound(datasetId: string)      // the layer's dataset is not in the map definition
    | AttributeNotFound(attribute: string)    // no data attribute of the dataset has this field
    | MissingQuantiles(attribute: string)     // the radius ramp needs quantiles the attribute lacks
    | NoLabelLayerStyle(basemapName: string)  // the base style has no label layer template

  datatype Option<+T> = None | Some(value: T) {

    /** `x || default` for an object-valued `x`: the value when present. */
    function GetOr(default: T): T {
      match this
      case Some(v) => v
      case None => default
    }
  }

  datatype Result<+T> = Ok(value: T) | Err(error: StyleError) {

    predicate IsFailure() {
      Err?
    }

    function PropagateFailure<U>(): Result<U>
      requires Err?
    {
      Err(error)
    }

    function Extract(): T
      requires Ok?
    {
      value
    }
  }
}

=== FILE: source-builder.dfy ===
/** Source declarations for the datasets a map uses (`generateSources`,
    `generateMapStyleSource`) and their merge into the base style's sources. */
module SourceBuilder {
  import opened Results
  import opened StyleTypes

  /** `{type: 'vector', url: '<datasetId>/index.json'}`. */
  function MapStyleSource(datasetId: string): (r: Source)
    ensures r.kind == "vector" && r.tiles.None? && r.data.None? && r.other == map[]
    ensures r.url.Some? && |r.url.value| == |datasetId| + 11
    ensures r.url.value[..|datasetId|] == datasetId && r.url.value[|datasetId|..] == "/index.json"
  {
    Source("vector", Some(datasetId + "/index.json"), None, None, map[])
  }

  /** The distinct dataset ids the layers reference. */
  ghost function DatasetIds(layers: seq<MapLayer>): set<string> {
    set l | l in layers :: l.datasetId
  }

  /** One vector source per distinct dataset id, built by folding the layers
      left to right into a mapping (a later layer overwrites an earlier one
      with the same dataset id, with an identical value). */
  function GenerateSources(layers: seq<MapLayer>): (r: map<string, Source>)
    ensures r.Keys == DatasetIds(layers)
    ensures forall id :: id in r ==> r[id] == MapStyleSource(id)
  {
    if |layers| == 0 then map[]
    else
      var last := layers[|layers| - 1];
      assert DatasetIds(layers) == DatasetIds(layers[..|layers| - 1]) + {last.datasetId} by {
        assert layers == layers[..|layers| - 1] + [last];
      }
      GenerateSources(layers[..|layers| - 1])[last.datasetId := MapStyleSource(last.datasetId)]
  }

  /** `{...base, ...generated}`: a generated source replaces a base source with
      the same id; every other base source survives. */
  function MergeSources(base: map<string, Source>, generated: map<string, Source>): (r: map<string, Source>)
    ensures r.Keys == base.Keys + generated.Keys
    ensures forall k :: k in generated ==> r[k] == generated[k]
    ensures forall k :: k in base && k !in generated ==> r[k] == base[k]
  {
    base + generated
  }

  /** After the merge, every referenced dataset has its generated vector
      source, whatever the base style declared under that id, and every other
      base source is kept. */
  lemma MergedSources(base: map<string, Source>, layers: seq<MapLayer>)
    ensures MergeSources(base, GenerateSources(layers)).Keys == base.Keys + DatasetIds(layers)
    ensures forall l :: l in layers ==> MergeSources(base, GenerateSources(layers))[l.datasetId] == MapStyleSource(l.datasetId)
    ensures forall k :: k in base && k !in DatasetIds(layers) ==> MergeSources(base, GenerateSources(layers))[k] == base[k]
  {
  }
}

=== FILE: style-generator.dfy ===
/** The orchestrator (`generateMapStyle`): viewport, sources, data layers and
    label layers of a base style, combined into one style document. */
module StyleGenerator {
  import opened Results
  import opened StyleTypes
  import opened Lookup
  import opened TileUrls
  import opened SourceBuilder
  import opened LayerBuilder
  import opened LayerInsertion

  /** `insertionPoints[category]`: `undefined` when the category has no anchor. */
  function AnchorFor(points: map<string, string>, category: string): (r: Option<string>)
    ensures r.None? <==> category !in points
    ensures r.Some? ==> r.value == points[category]
  {
    if category in points then Some(points[category]) else None
  }

  /** The data layer of every map layer, in map-definition order, or the
      error of the first map layer whose data layer cannot be built. */
  function DataLayers(mapLayers: seq<MapLayer>, datasets: seq<Dataset>): (r: Result<seq<Layer>>)
    ensures r.Ok? <==> forall i :: 0 <= i < |mapLayers| ==> GenerateMapLayer(mapLayers[i], datasets).Ok?
    ensures r.Ok? ==> |r.value| == |mapLayers|
    ensures r.Ok? ==> forall i :: 0 <= i < |mapLayers| ==> r.value[i] == GenerateMapLayer(mapLayers[i], datasets).value
    ensures r.Err? ==> exists i :: 0 <= i < |mapLayers| && GenerateMapLayer(mapLayers[i], datasets) == Err(r.error)
                                   && forall j :: 0 <= j < i ==> GenerateMapLayer(mapLayers[j], datasets).Ok?
  {
    if |mapLayers| == 0 then Ok([])
    else if GenerateMapLayer(mapLayers[0], datasets).Err? then
      assert GenerateMapLayer(mapLayers[0], datasets) == Err(GenerateMapLayer(mapLayers[0], datasets).error);
      Err(GenerateMapLayer(mapLayers[0], datasets).error)
    else
      var first := GenerateMapLayer(mapLayers[0], datasets).value;
      var rest := DataLayers(mapLayers[1..], datasets);
      if rest.Err? then
        ghost var i :| 0 <= i < |mapLayers[1..]| && GenerateMapLayer(mapLayers[1..][i], datasets) == Err(rest.error)
                       && forall j :: 0 <= j < i ==> GenerateMapLayer(mapLayers[1..][j], datasets).Ok?;
        assert GenerateMapLayer(mapLayers[i + 1], datasets) == Err(rest.error);
        assert forall j :: 0 <= j < i + 1 ==> GenerateMapLayer(mapLayers[j], datasets).Ok? by {
          forall j | 0 < j < i + 1
            ensures GenerateMapLayer(mapLayers[j], datasets).Ok?
          {
            assert mapLayers[j] == mapLayers[1..][j - 1];
          }
        }
        Err(rest.error)
      else
        BuiltCons(mapLayers, datasets, first, rest.value);
        Ok([first] + rest.value)
  }

  /** Prepending the first built layer to the layers built from the rest
      gives the layer built from each map layer at its own index. */
  lemma BuiltCons(mapLayers: seq<MapLayer>, datasets: seq<Dataset>, first: Layer, rest: seq<Layer>)
    requires |mapLayers| > 0 && GenerateMapLayer(mapLayers[0], datasets) == Ok(first)
    requires |rest| == |mapLayers| - 1
    requires forall i :: 0 <= i < |rest| ==> GenerateMapLayer(mapLayers[1..][i], datasets) == Ok(rest[i])
    ensures forall i :: 0 <= i < |mapLayers| ==> GenerateMapLayer(mapLayers[i], datasets) == Ok(([first] + rest)[i])
  {
    forall i | 0 <= i < |mapLayers|
      ensures GenerateMapLayer(mapLayers[i], datasets) == Ok(([first] + rest)[i])
    {
      ConsAt(first, rest, i);
      if i > 0 {
        TailIndex(mapLayers, i);
      }
    }
  }

  /** Element `i` of a list with `x` put in front. */
  lemma ConsAt<T>(x: T, rest: seq<T>, i: nat)
    requires i <= |rest|
    ensures i == 0 ==> ([x] + rest)[i] == x
    ensures i > 0 ==> ([x] + rest)[i] == rest[i - 1]
  {
  }

  /** The first loop of `generateMapStyle`: build each data layer and insert
      it before the anchor of its layer type, in map-definition order. Fails
      exactly when some data layer cannot be built, with the first such
      error; otherwise adds exactly the built data layers. */
  function InsertDataLayers(points: map<string, string>, datasets: seq<Dataset>, layers: seq<Layer>, mapLayers: seq<MapLayer>): (r: Result<seq<Layer>>)
    ensures r.Ok? <==> DataLayers(mapLayers, datasets).Ok?
    ensures r.Err? ==> DataLayers(mapLayers, datasets) == Err(r.error)
    ensures r.Ok? ==> |r.value| == |layers| + |mapLayers|
    decreases |mapLayers|
  {
    if |mapLayers| == 0 then Ok(layers)
    else
      var layer :- GenerateMapLayer(mapLayers[0], datasets);
      var next := InsertMapLayer(AnchorFor(points, mapLayers[0].layerType), layers, layer);
      InsertDataLayers(points, datasets, next, mapLayers[1..])
  }

  /** The data-layer loop adds exactly the built data layers to the list and
      keeps the layers already there in their order. */
  lemma InsertDataLayersContents(points: map<string, string>, datasets: seq<Dataset>, layers: seq<Layer>, mapLayers: seq<MapLayer>)
    requires InsertDataLayers(points, datasets, layers, mapLayers).Ok?
    ensures multiset(InsertDataLayers(points, datasets, layers, mapLayers).value)
      == multiset(layers) + multiset(DataLayers(mapLayers, datasets).value)
    ensures IsSubsequence(layers, InsertDataLayers(points, datasets, layers, mapLayers).value)
  {
    InsertDataLayersAsInsertAll(points, datasets, layers, mapLayers);
    InsertAllContents(DataAnchors(points, mapLayers), layers, DataLayers(mapLayers, datasets).value);
    InsertAllKeepsBase(DataAnchors(points, mapLayers), layers, DataLayers(mapLayers, datasets).value);
  }

  /** Every data layer whose layer type has an anchor naming a layer of the
      starting list ends up before a layer carrying that id: it is inserted
      just before the first such layer, and later insertions keep the order. */
  lemma {:induction false} InsertDataLayersPlacement(points: map<string, string>, datasets: seq<Dataset>, layers: seq<Layer>, mapLayers: seq<MapLayer>)
    requires InsertDataLayers(points, datasets, layers, mapLayers).Ok?
    ensures forall i :: 0 <= i < |mapLayers| && mapLayers[i].layerType in points
                        && HasLayerWithId(layers, points[mapLayers[i].layerType]) ==>
      LandsBefore(DataLayers(mapLayers, datasets).value[i], points[mapLayers[i].layerType],
                  InsertDataLayers(points, datasets, layers, mapLayers).value)
    decreases |mapLayers|
  {
    if |mapLayers| > 0 {
      var layer := GenerateMapLayer(mapLayers[0], datasets).value;
      var anchor := AnchorFor(points, mapLayers[0].layerType);
      var next := InsertMapLayer(anchor, layers, layer);
      var r := InsertDataLayers(points, datasets, next, mapLayers[1..]).value;
      InsertKeepsBase(anchor, layers, layer);
      InsertDataLayersContents(points, datasets, next, mapLayers[1..]);
      InsertDataLayersPlacement(points, datasets, next, mapLayers[1..]);
      assert DataLayers(mapLayers, datasets).value == [layer] + DataLayers(mapLayers[1..], datasets).value;
      forall i | 0 <= i < |mapLayers| && mapLayers[i].layerType in points
                 && HasLayerWithId(layers, points[mapLayers[i].layerType])
        ensures LandsBefore(DataLayers(mapLayers, datasets).value[i], points[mapLayers[i].layerType], r)
      {
        var id := points[mapLayers[i].layerType];
        if i == 0 {
          InsertLandsBefore(id, layers, layer);
          SubsequenceLandsBefore(layer, id, next, r);
        } else {
          SubsequenceHasLayer(layers, next, id);
          assert mapLayers[i] == mapLayers[1..][i - 1];
        }
      }
    }
  }

  /** The anchor of each map layer's data layer, in map-definition order. */
  function DataAnchors(points: map<string, string>, mapLayers: seq<MapLayer>): (r: seq<Option<string>>)
    ensures |r| == |mapLayers|
  {
    seq(|mapLayers|, i requires 0 <= i < |mapLayers| => AnchorFor(points, mapLayers[i].layerType))
  }

  /** The data-layer loop of a successful run is the insertion loop over the
      built data layers and their anchors. */
  lemma {:induction false} InsertDataLayersAsInsertAll(points: map<string, string>, datasets: seq<Dataset>, layers: seq<Layer>, mapLayers: seq<MapLayer>)
    requires InsertDataLayers(points, datasets, layers, mapLayers).Ok?
    ensures InsertDataLayers(points, datasets, layers, mapLayers).value
      == InsertAll(DataAnchors(points, mapLayers), layers, DataLayers(mapLayers, datasets).value)
    decreases |mapLayers|
  {
    if |mapLayers| > 0 {
      DataLoopUnfold(points, datasets, layers, mapLayers);
      var d := GenerateMapLayer(mapLayers[0], datasets).value;
      var next := InsertMapLayer(AnchorFor(points, mapLayers[0].layerType), layers, d);
      InsertDataLayersAsInsertAll(points, datasets, next, mapLayers[1..]);
      DataAnchorsTail(points, mapLayers);
      assert DataLayers(mapLayers, datasets).value[1..] == DataLayers(mapLayers[1..], datasets).value;
    }
  }

  lemma DataAnchorsTail(points: map<string, string>, mapLayers: seq<MapLayer>)
    requires |mapLayers| > 0
    ensures DataAnchors(points, mapLayers)[1..] == DataAnchors(points, mapLayers[1..])
  {
    assert forall i :: 0 <= i < |mapLayers| - 1 ==> DataAnchors(points, mapLayers)[1..][i] == DataAnchors(points, mapLayers)[i + 1];
  }

  /** One turn of the data-layer loop of a successful run: the first data
      layer is built, inserted, and heads the built list. */
  lemma DataLoopUnfold(points: map<string, string>, datasets: seq<Dataset>, layers: seq<Layer>, mapLayers: seq<MapLayer>)
    requires |mapLayers| > 0
    requires InsertDataLayers(points, datasets, layers, mapLayers).Ok?
    ensures GenerateMapLayer(mapLayers[0], datasets).Ok?
    ensures var d := GenerateMapLayer(mapLayers[0], datasets).value;
      && InsertDataLayers(points, datasets, layers, mapLayers)
         == InsertDataLayers(points, datasets, InsertMapLayer(AnchorFor(points, mapLayers[0].layerType), layers, d), mapLayers[1..])
      && DataLayers(mapLayers, datasets).value == [d] + DataLayers(mapLayers[1..], datasets).value
  {
  }

  /** No built data layer carries an anchor id when no map layer's
      `datalayer-` id is one. */
  lemma DataLayerIdsAreNotAnchors(points: map<string, string>, datasets: seq<Dataset>, mapLayers: seq<MapLayer>, a: string)
    requires DataLayers(mapLayers, datasets).Ok?
    requires forall m :: m in mapLayers ==> DATA_LAYER_PREFIX + m.layerId !in points.Values
    requires a in points.Values
    ensures forall t :: 0 <= t < |mapLayers| ==> DataLayers(mapLayers, datasets).value[t].id != a
  {
    forall t | 0 <= t < |mapLayers|
      ensures DataLayers(mapLayers, datasets).value[t].id != a
    {
      assert mapLayers[t] in mapLayers;
    }
  }

  /** When no data layer carries an anchor id, each data layer whose anchor
      is found lands after every layer that preceded that anchor. */
  lemma InsertDataLayersAfterPrefix(points: map<string, string>, datasets: seq<Dataset>, layers: seq<Layer>, mapLayers: seq<MapLayer>)
    requires InsertDataLayers(points, datasets, layers, mapLayers).Ok?
    requires forall m :: m in mapLayers ==> DATA_LAYER_PREFIX + m.layerId !in points.Values
    ensures forall i, j :: 0 <= i < |mapLayers| && mapLayers[i].layerType in points
                           && 0 <= j < AnchorIndex(layers, Some(points[mapLayers[i].layerType])) ==>
      IsSubsequence([layers[j], DataLayers(mapLayers, datasets).value[i]], InsertDataLayers(points, datasets, layers, mapLayers).value)
  {
    InsertDataLayersAsInsertAll(points, datasets, layers, mapLayers);
    forall i, j | 0 <= i < |mapLayers| && mapLayers[i].layerType in points
                  && 0 <= j < AnchorIndex(layers, Some(points[mapLayers[i].layerType]))
      ensures IsSubsequence([layers[j], DataLayers(mapLayers, datasets).value[i]], InsertDataLayers(points, datasets, layers, mapLayers).value)
    {
      var a := points[mapLayers[i].layerType];
      DataLayerIdsAreNotAnchors(points, datasets, mapLayers, a);
      InsertAllAfterPrefix(DataAnchors(points, mapLayers), layers, DataLayers(mapLayers, datasets).value, a, i, j);
    }
  }

  /** When no data layer carries an anchor id, data layers whose found
      anchor is the same keep their map-definition order. */
  lemma InsertDataLayersSameAnchor(points: map<string, string>, datasets: seq<Dataset>, layers: seq<Layer>, mapLayers: seq<MapLayer>)
    requires InsertDataLayers(points, datasets, layers, mapLayers).Ok?
    requires forall m :: m in mapLayers ==> DATA_LAYER_PREFIX + m.layerId !in points.Values
    ensures forall i, k :: 0 <= i < k < |mapLayers| && mapLayers[i].layerType in points && mapLayers[k].layerType in points
                           && points[mapLayers[i].layerType] == points[mapLayers[k].layerType]
                           && AnchorIndex(layers, Some(points[mapLayers[i].layerType])) >= 0 ==>
      IsSubsequence([DataLayers(mapLayers, datasets).value[i], DataLayers(mapLayers, datasets).value[k]],
                    InsertDataLayers(points, datasets, layers, mapLayers).value)
  {
    InsertDataLayersAsInsertAll(points, datasets, layers, mapLayers);
    forall i, k | 0 <= i < k < |mapLayers| && mapLayers[i].layerType in points && mapLayers[k].layerType in points
                  && points[mapLayers[i].layerType] == points[mapLayers[k].layerType]
                  && AnchorIndex(layers, Some(points[mapLayers[i].layerType])) >= 0
      ensures IsSubsequence([DataLayers(mapLayers, datasets).value[i], DataLayers(mapLayers, datasets).value[k]],
                            InsertDataLayers(points, datasets, layers, mapLayers).value)
    {
      var a := points[mapLayers[i].layerType];
      DataLayerIdsAreNotAnchors(points, datasets, mapLayers, a);
      InsertAllSameAnchor(DataAnchors(points, mapLayers), layers, DataLayers(mapLayers, datasets).value, a, i, k);
    }
  }

  /** `mapDefinition.layers.filter(layer => layer.labelAttribute !== null)`:
      an `undefined` label attribute passes the filter. */
  function LabelledLayers(mapLayers: seq<MapLayer>): (r: seq<MapLayer>)
    ensures |r| <= |mapLayers|
    ensures AllLabelled(r)
  {
    if |mapLayers| == 0 then []
    else if mapLayers[0].labelAttribute != NullLabel then [mapLayers[0]] + LabelledLayers(mapLayers[1..])
    else LabelledLayers(mapLayers[1..])
  }

  /** Every map layer of the list has a label attribute that is not null. */
  predicate AllLabelled(mapLayers: seq<MapLayer>) {
    forall i :: 0 <= i < |mapLayers| ==> mapLayers[i].labelAttribute != NullLabel
  }

  /** The filter keeps exactly the map layers whose label attribute is not null. */
  lemma {:induction false} LabelledLayersMembers(mapLayers: seq<MapLayer>)
    ensures forall l :: l in LabelledLayers(mapLayers) <==> l in mapLayers && l.labelAttribute != NullLabel
    decreases |mapLayers|
  {
    if |mapLayers| > 0 {
      LabelledLayersMembers(mapLayers[1..]);
      assert mapLayers == [mapLayers[0]] + mapLayers[1..];
    }
  }

  /** The label filter keeps a single map layer exactly when its label
      attribute is not null. */
  lemma LabelledLayersSingle(m: MapLayer)
    ensures LabelledLayers([m]) == if m.labelAttribute != NullLabel then [m] else []
  {
    LabelledLayersCons(m, []);
    assert [m] + [] == [m];
  }

  /** The filter of a concatenation is the concatenation of the filters:
      with the single-layer case, the filter keeps the map layers whose
      label attribute is not null in their order and with their
      multiplicity. */
  lemma {:induction false} LabelledLayersAppend(a: seq<MapLayer>, b: seq<MapLayer>)
    ensures LabelledLayers(a + b) == LabelledLayers(a) + LabelledLayers(b)
    decreases |a|
  {
    if |a| == 0 {
      assert a + b == b;
    } else {
      var t := a[1..];
      var head := if a[0].labelAttribute != NullLabel then [a[0]] else [];
      LabelledLayersAppend(t, b);
      HeadAppend(a, b);
      assert LabelledLayers(a + b) == head + LabelledLayers(t + b);
      assert LabelledLayers(a) == head + LabelledLayers(t);
    }
  }

  /** One step of the label filter. */
  lemma LabelledLayersCons(m: MapLayer, rest: seq<MapLayer>)
    ensures LabelledLayers([m] + rest) == (if m.labelAttribute != NullLabel then [m] else []) + LabelledLayers(rest)
  {
    assert ([m] + rest)[1..] == rest;
  }

  /** The label layer of every map layer that passes the label filter, in order. */
  function LabelLayers(template: LabelLayerStyle, mapLayers: seq<MapLayer>): (r: seq<Layer>)
    ensures |r| == |LabelledLayers(mapLayers)|
    ensures forall i :: 0 <= i < |r| ==> Some(r[i]) == GenerateLabelLayer(LabelledLayers(mapLayers)[i], template)
  {
    if |mapLayers| == 0 then []
    else if mapLayers[0].labelAttribute != NullLabel then
      [GenerateLabelLayer(mapLayers[0], template).value] + LabelLayers(template, mapLayers[1..])
    else LabelLayers(template, mapLayers[1..])
  }

  /** The second loop of `generateMapStyle`: build the label layer of each
      filtered map layer and insert it before the "label" anchor. */
  function InsertLabelLayers(anchor: Option<string>, template: LabelLayerStyle, layers: seq<Layer>, labelled: seq<MapLayer>): (r: seq<Layer>)
    requires AllLabelled(labelled)
    ensures |r| == |layers| + |labelled|
    decreases |labelled|
  {
    if |labelled| == 0 then layers
    else
      var layer := GenerateLabelLayer(labelled[0], template).value;
      InsertLabelLayers(anchor, template, InsertMapLayer(anchor, layers, layer), labelled[1..])
  }

  /** The label-layer loop adds exactly the label layers of the filtered map
      layers to the list and keeps the layers already there in their order. */
  lemma {:induction false} InsertLabelLayersContents(anchor: Option<string>, template: LabelLayerStyle, layers: seq<Layer>, labelled: seq<MapLayer>)
    requires AllLabelled(labelled)
    ensures multiset(InsertLabelLayers(anchor, template, layers, labelled)) == multiset(layers) + multiset(LabelLayers(template, labelled))
    ensures IsSubsequence(layers, InsertLabelLayers(anchor, template, layers, labelled))
    decreases |labelled|
  {
    if |labelled| == 0 {
      SubsequenceRefl(layers);
    } else {
      var layer := GenerateLabelLayer(labelled[0], template).value;
      var next := InsertMapLayer(anchor, layers, layer);
      InsertKeepsOrder(anchor, layers, layer);
      InsertKeepsBase(anchor, layers, layer);
      InsertLabelLayersContents(anchor, template, next, labelled[1..]);
      SubsequenceTrans(layers, next, InsertLabelLayers(anchor, template, next, labelled[1..]));
      assert LabelLayers(template, labelled) == [layer] + LabelLayers(template, labelled[1..]);
    }
  }

  /** The label layers of a non-empty list land as one block, in filter
      order, at the place the first of them is inserted, provided no label
      layer carries the anchor id itself (each insertion goes before the
      anchor, after the label layers inserted before it). */
  lemma {:induction false} InsertLabelLayersPlacement(anchor: Option<string>, template: LabelLayerStyle, layers: seq<Layer>, labelled: seq<MapLayer>)
    requires |layers| > 0
    requires AllLabelled(labelled)
    requires anchor.Some? ==> forall l :: l in labelled ==> LABEL_LAYER_PREFIX + l.layerId != anchor.value
    ensures var k := InsertionIndex(anchor, layers);
      InsertLabelLayers(anchor, template, layers, labelled) == layers[..k] + LabelLayers(template, labelled) + layers[k..]
    decreases |labelled|
  {
    var k := InsertionIndex(anchor, layers);
    if |labelled| == 0 {
      assert layers[..k] + [] + layers[k..] == layers;
    } else {
      var layer := GenerateLabelLayer(labelled[0], template).value;
      var next := InsertMapLayer(anchor, layers, layer);
      var block := LabelLayers(template, labelled[1..]);
      InsertionIndexAfterInsert(anchor, layers, layer);
      InsertLabelLayersPlacement(anchor, template, next, labelled[1..]);
      assert LabelLayers(template, labelled) == [layer] + block;
      InsertMapLayerSplit(anchor, layers, layer);
      BlockAfterInsert(layers[..k], layers[k..], layer, block);
    }
  }

  /** Inserting a layer and then a block right after it is inserting the
      layer followed by the block. */
  lemma BlockAfterInsert(prefix: seq<Layer>, suffix: seq<Layer>, layer: Layer, block: seq<Layer>)
    ensures var next := prefix + [layer] + suffix;
      next[..|prefix| + 1] + block + next[|prefix| + 1..] == prefix + ([layer] + block) + suffix
  {
    var next := prefix + [layer] + suffix;
    assert next[..|prefix| + 1] == prefix + [layer];
    assert next[|prefix| + 1..] == suffix;
  }

  /** `generateMapStyle`. The viewport comes from the map definition when it
      sets one (a zoom of 0 does not count, as `||` reads it as unset); the
      generated sources are merged over the base sources and every URL is
      expanded; the data layers are inserted; then, failing if the base style
      has no label template, the label layers are inserted. */
  function GenerateMapStyle(basemap: Basemap, definition: MapDefinition, baseUrl: string): (r: Result<Style>)
    ensures r.Ok? ==> r.value.metadata.mapDefinition == Some(definition)
    ensures r.Ok? ==> r.value.metadata.insertionPoints == basemap.style.metadata.insertionPoints
    ensures r.Ok? ==> r.value.metadata.labelLayerStyle == basemap.style.metadata.labelLayerStyle
  {
    var style := basemap.style;
    var metadata := style.metadata.(mapDefinition := Some(definition));
    var zoom := if definition.zoom.Some? && definition.zoom.value != 0.0 then definition.zoom else style.zoom;
    var center := if definition.center.Some? then definition.center else style.center;
    var sources := ExpandTileSources(baseUrl, MergeSources(style.sources, GenerateSources(definition.layers)));
    var points := metadata.insertionPoints.GetOr(map[]);
    var withData :- InsertDataLayers(points, definition.datasets, style.layers, definition.layers);
    if metadata.labelLayerStyle.None? then Err(NoLabelLayerStyle(basemap.name))
    else
      var layers := InsertLabelLayers(AnchorFor(points, "label"), metadata.labelLayerStyle.value, withData, LabelledLayers(definition.layers));
      Ok(Style(zoom, center, sources, layers, metadata))
  }

  /** Synthesis fails exactly when a data layer cannot be built (with the
      first such error) or, after that, when the base style has no label
      template, whether or not any layer carries a label. */
  lemma GenerateMapStyleFailures(basemap: Basemap, definition: MapDefinition, baseUrl: string)
    ensures var r := GenerateMapStyle(basemap, definition, baseUrl);
      var built := DataLayers(definition.layers, definition.datasets);
      && (r.Err? <==> built.Err? || basemap.style.metadata.labelLayerStyle.None?)
      && (built.Err? ==> r == Err(built.error))
      && (built.Ok? && basemap.style.metadata.labelLayerStyle.None? ==> r == Err(NoLabelLayerStyle(basemap.name)))
  {
  }

  /** The viewport of the result. */
  lemma GenerateMapStyleViewport(basemap: Basemap, definition: MapDefinition, baseUrl: string)
    ensures var r := GenerateMapStyle(basemap, definition, baseUrl);
      r.Ok? ==>
      && (definition.zoom.Some? && definition.zoom.value != 0.0 ==> r.value.zoom == definition.zoom)
      && (definition.zoom.None? || definition.zoom == Some(0.0) ==> r.value.zoom == basemap.style.zoom)
      && (definition.center.Some? ==> r.value.center == definition.center)
      && (definition.center.None? ==> r.value.center == basemap.style.center)
  {
  }

  /** The sources of the result: one expanded vector source per dataset the
      layers reference, replacing any base source of that id, and every other
      base source, expanded. */
  lemma GenerateMapStyleSources(basemap: Basemap, definition: MapDefinition, baseUrl: string)
    ensures var r := GenerateMapStyle(basemap, definition, baseUrl);
      r.Ok? ==>
      && r.value.sources.Keys == basemap.style.sources.Keys + DatasetIds(definition.layers)
      && (forall l :: l in definition.layers ==>
            r.value.sources[l.datasetId] == Source("vector", Some(ExpandRelativeTileUrl(baseUrl, l.datasetId + "/index.json")), None, None, map[]))
      && (forall k :: k in basemap.style.sources && k !in DatasetIds(definition.layers) ==>
            r.value.sources[k] == ExpandSource(baseUrl, basemap.style.sources[k]))
  {
    MergedSources(basemap.style.sources, definition.layers);
  }

  /** When every data layer can be built and the base style has a label
      template, synthesis succeeds, and its layers are the base layers, one
      data layer per map layer and one label layer per map layer whose label
      attribute is not null, and nothing else; the base layers keep their
      order. */
  lemma GenerateMapStyleLayers(basemap: Basemap, definition: MapDefinition, baseUrl: string)
    requires DataLayers(definition.layers, definition.datasets).Ok?
    requires basemap.style.metadata.labelLayerStyle.Some?
    ensures GenerateMapStyle(basemap, definition, baseUrl).Ok?
    ensures var r := GenerateMapStyle(basemap, definition, baseUrl).value;
      var template := basemap.style.metadata.labelLayerStyle.value;
      && |r.layers| == |basemap.style.layers| + |definition.layers| + |LabelledLayers(definition.layers)|
      && multiset(r.layers) == multiset(basemap.style.layers)
           + multiset(DataLayers(definition.layers, definition.datasets).value)
           + multiset(LabelLayers(template, LabelledLayers(definition.layers)))
      && IsSubsequence(basemap.style.layers, r.layers)
  {
    var style := basemap.style;
    var points := style.metadata.insertionPoints.GetOr(map[]);
    InsertDataLayersContents(points, definition.datasets, style.layers, definition.layers);
    var withData := InsertDataLayers(points, definition.datasets, style.layers, definition.layers).value;
    var labelled := LabelledLayers(definition.layers);
    InsertLabelLayersContents(AnchorFor(points, "label"), style.metadata.labelLayerStyle.value, withData, labelled);
    SubsequenceTrans(style.layers, withData,
      InsertLabelLayers(AnchorFor(points, "label"), style.metadata.labelLayerStyle.value, withData, labelled));
  }

  /** Where the data layers land in a successful synthesis: each data layer
      whose layer type has an anchor naming a base layer comes before a
      layer carrying that id. */
  lemma GenerateMapStyleDataPlacement(basemap: Basemap, definition: MapDefinition, baseUrl: string)
    requires DataLayers(definition.layers, definition.datasets).Ok?
    requires basemap.style.metadata.labelLayerStyle.Some?
    ensures GenerateMapStyle(basemap, definition, baseUrl).Ok?
    ensures var r := GenerateMapStyle(basemap, definition, baseUrl).value;
      var points := basemap.style.metadata.insertionPoints.GetOr(map[]);
      forall i :: 0 <= i < |definition.layers| && definition.layers[i].layerType in points
                  && HasLayerWithId(basemap.style.layers, points[definition.layers[i].layerType]) ==>
        LandsBefore(DataLayers(definition.layers, definition.datasets).value[i], points[definition.layers[i].layerType], r.layers)
  {
    var style := basemap.style;
    var points := style.metadata.insertionPoints.GetOr(map[]);
    var template := style.metadata.labelLayerStyle.value;
    GenerateMapStyleLayerList(basemap, definition, baseUrl);
    InsertDataLayersPlacement(points, definition.datasets, style.layers, definition.layers);
    var withData := InsertDataLayers(points, definition.datasets, style.layers, definition.layers).value;
    var labelled := LabelledLayers(definition.layers);
    var r := InsertLabelLayers(AnchorFor(points, "label"), template, withData, labelled);
    InsertLabelLayersContents(AnchorFor(points, "label"), template, withData, labelled);
    forall i | 0 <= i < |definition.layers| && definition.layers[i].layerType in points
               && HasLayerWithId(style.layers, points[definition.layers[i].layerType])
      ensures LandsBefore(DataLayers(definition.layers, definition.datasets).value[i], points[definition.layers[i].layerType], r)
    {
      SubsequenceLandsBefore(DataLayers(definition.layers, definition.datasets).value[i], points[definition.layers[i].layerType], withData, r);
    }
  }

  /** Lower bound on where the data layers land in a successful synthesis,
      when no data layer id is an anchor id: each data layer whose anchor
      names a base layer comes after every base layer before that anchor. */
  lemma GenerateMapStyleDataAfterPrefix(basemap: Basemap, definition: MapDefinition, baseUrl: string)
    requires DataLayers(definition.layers, definition.datasets).Ok?
    requires basemap.style.metadata.labelLayerStyle.Some?
    requires forall m :: m in definition.layers ==>
      DATA_LAYER_PREFIX + m.layerId !in basemap.style.metadata.insertionPoints.GetOr(map[]).Values
    ensures GenerateMapStyle(basemap, definition, baseUrl).Ok?
    ensures var r := GenerateMapStyle(basemap, definition, baseUrl).value;
      var points := basemap.style.metadata.insertionPoints.GetOr(map[]);
      var base := basemap.style.layers;
      forall i, j :: 0 <= i < |definition.layers| && definition.layers[i].layerType in points
                     && 0 <= j < AnchorIndex(base, Some(points[definition.layers[i].layerType])) ==>
        IsSubsequence([base[j], DataLayers(definition.layers, definition.datasets).value[i]], r.layers)
  {
    var style := basemap.style;
    var points := style.metadata.insertionPoints.GetOr(map[]);
    var template := style.metadata.labelLayerStyle.value;
    var built := DataLayers(definition.layers, definition.datasets).value;
    GenerateMapStyleLayerList(basemap, definition, baseUrl);
    InsertDataLayersAfterPrefix(points, definition.datasets, style.layers, definition.layers);
    var withData := InsertDataLayers(points, definition.datasets, style.layers, definition.layers).value;
    var labelled := LabelledLayers(definition.layers);
    var r := InsertLabelLayers(AnchorFor(points, "label"), template, withData, labelled);
    InsertLabelLayersContents(AnchorFor(points, "label"), template, withData, labelled);
    forall i, j | 0 <= i < |definition.layers| && definition.layers[i].layerType in points
                  && 0 <= j < AnchorIndex(style.layers, Some(points[definition.layers[i].layerType]))
      ensures IsSubsequence([style.layers[j], built[i]], r)
    {
      SubsequenceTrans([style.layers[j], built[i]], withData, r);
    }
  }

  /** Data layers whose anchor names the same base layer keep their
      map-definition order in a successful synthesis, when no data layer id
      is an anchor id. */
  lemma GenerateMapStyleDataSameAnchor(basemap: Basemap, definition: MapDefinition, baseUrl: string)
    requires DataLayers(definition.layers, definition.datasets).Ok?
    requires basemap.style.metadata.labelLayerStyle.Some?
    requires forall m :: m in definition.layers ==>
      DATA_LAYER_PREFIX + m.layerId !in basemap.style.metadata.insertionPoints.GetOr(map[]).Values
    ensures GenerateMapStyle(basemap, definition, baseUrl).Ok?
    ensures var r := GenerateMapStyle(basemap, definition, baseUrl).value;
      var points := basemap.style.metadata.insertionPoints.GetOr(map[]);
      var built := DataLayers(definition.layers, definition.datasets).value;
      forall i, k :: 0 <= i < k < |definition.layers|
                     && definition.layers[i].layerType in points && definition.layers[k].layerType in points
                     && points[definition.layers[i].layerType] == points[definition.layers[k].layerType]
                     && HasLayerWithId(basemap.style.layers, points[definition.layers[i].layerType]) ==>
        IsSubsequence([built[i], built[k]], r.layers)
  {
    var style := basemap.style;
    var points := style.metadata.insertionPoints.GetOr(map[]);
    var template := style.metadata.labelLayerStyle.value;
    var built := DataLayers(definition.layers, definition.datasets).value;
    GenerateMapStyleLayerList(basemap, definition, baseUrl);
    InsertDataLayersSameAnchor(points, definition.datasets, style.layers, definition.layers);
    var withData := InsertDataLayers(points, definition.datasets, style.layers, definition.layers).value;
    var labelled := LabelledLayers(definition.layers);
    var r := InsertLabelLayers(AnchorFor(points, "label"), template, withData, labelled);
    InsertLabelLayersContents(AnchorFor(points, "label"), template, withData, labelled);
    forall i, k | 0 <= i < k < |definition.layers|
                  && definition.layers[i].layerType in points && definition.layers[k].layerType in points
                  && points[definition.layers[i].layerType] == points[definition.layers[k].layerType]
                  && HasLayerWithId(style.layers, points[definition.layers[i].layerType])
      ensures IsSubsequence([built[i], built[k]], r)
    {
      AnchorFound(style.layers, points[definition.layers[i].layerType]);
      SubsequenceTrans([built[i], built[k]], withData, r);
    }
  }

  /** Where the label layers land in a successful synthesis: as one block,
      in map-definition order, at the insertion index of the "label" anchor
      in the list the data-layer loop produced, provided no label layer
      carries the anchor id itself. */
  lemma GenerateMapStyleLabelPlacement(basemap: Basemap, definition: MapDefinition, baseUrl: string)
    requires DataLayers(definition.layers, definition.datasets).Ok?
    requires basemap.style.metadata.labelLayerStyle.Some?
    requires var points := basemap.style.metadata.insertionPoints.GetOr(map[]);
      "label" in points ==> forall l :: l in definition.layers && l.labelAttribute != NullLabel ==>
        LABEL_LAYER_PREFIX + l.layerId != points["label"]
    ensures GenerateMapStyle(basemap, definition, baseUrl).Ok?
    ensures var r := GenerateMapStyle(basemap, definition, baseUrl).value;
      var points := basemap.style.metadata.insertionPoints.GetOr(map[]);
      var withData := InsertDataLayers(points, definition.datasets, basemap.style.layers, definition.layers).value;
      var k := InsertionIndex(AnchorFor(points, "label"), withData);
      r.layers == withData[..k] + LabelLayers(basemap.style.metadata.labelLayerStyle.value, LabelledLayers(definition.layers)) + withData[k..]
  {
    var style := basemap.style;
    var points := style.metadata.insertionPoints.GetOr(map[]);
    var template := style.metadata.labelLayerStyle.value;
    GenerateMapStyleLayerList(basemap, definition, baseUrl);
    var withData := InsertDataLayers(points, definition.datasets, style.layers, definition.layers).value;
    var labelled := LabelledLayers(definition.layers);
    var k := InsertionIndex(AnchorFor(points, "label"), withData);
    LabelledLayersMembers(definition.layers);
    if |withData| > 0 {
      InsertLabelLayersPlacement(AnchorFor(points, "label"), template, withData, labelled);
    } else {
      assert labelled == [];
      assert withData[..k] + [] + withData[k..] == withData;
    }
  }

  /** A synthesis over a base style whose layers are X, L, Y, with anchors
      {fill: "X", line: "L", label: "Y"}, of a labelled fill layer followed by
      an unlabelled line layer: the fill data layer lands just before X, the
      line data layer just before L, and the single label layer, the fill
      layer's, just before Y. */
  lemma GenerateMapStyleScenario(basemap: Basemap, definition: MapDefinition, baseUrl: string, fill: MapLayer, line: MapLayer)
    requires |basemap.style.layers| == 3
    requires basemap.style.layers[0].id == "X" && basemap.style.layers[1].id == "L" && basemap.style.layers[2].id == "Y"
    requires basemap.style.metadata.insertionPoints == Some(map["fill" := "X", "line" := "L", "label" := "Y"])
    requires basemap.style.metadata.labelLayerStyle.Some?
    requires definition.layers == [fill, line]
    requires fill.layerType == "fill" && fill.labelAttribute != NullLabel
    requires line.layerType == "line" && line.labelAttribute == NullLabel
    requires GenerateMapLayer(fill, definition.datasets).Ok? && GenerateMapLayer(line, definition.datasets).Ok?
    ensures var r := GenerateMapStyle(basemap, definition, baseUrl);
      var base := basemap.style.layers;
      && r.Ok?
      && r.value.layers == [GenerateMapLayer(fill, definition.datasets).value, base[0],
                            GenerateMapLayer(line, definition.datasets).value, base[1],
                            GenerateLabelLayer(fill, basemap.style.metadata.labelLayerStyle.value).value, base[2]]
  {
    var template := basemap.style.metadata.labelLayerStyle.value;
    ScenarioLoops(basemap.style.metadata.insertionPoints.GetOr(map[]), definition.datasets, template,
      basemap.style.layers, definition.layers, fill, line);
    GenerateMapStyleLayerList(basemap, definition, baseUrl);
  }

  /** The two loops of the scenario over the base layers X, L, Y. */
  lemma ScenarioLoops(points: map<string, string>, datasets: seq<Dataset>, template: LabelLayerStyle, base: seq<Layer>, mapLayers: seq<MapLayer>, fill: MapLayer, line: MapLayer)
    requires points == map["fill" := "X", "line" := "L", "label" := "Y"]
    requires |base| == 3 && base[0].id == "X" && base[1].id == "L" && base[2].id == "Y"
    requires mapLayers == [fill, line]
    requires fill.layerType == "fill" && fill.labelAttribute != NullLabel
    requires line.layerType == "line" && line.labelAttribute == NullLabel
    requires GenerateMapLayer(fill, datasets).Ok? && GenerateMapLayer(line, datasets).Ok?
    ensures DataLayers(mapLayers, datasets).Ok?
    ensures InsertLabelLayers(AnchorFor(points, "label"), template,
                              InsertDataLayers(points, datasets, base, mapLayers).value, LabelledLayers(mapLayers))
      == [GenerateMapLayer(fill, datasets).value, base[0], GenerateMapLayer(line, datasets).value, base[1],
          GenerateLabelLayer(fill, template).value, base[2]]
  {
    var x, l, y := base[0], base[1], base[2];
    ListOfThree(base);
    var a := GenerateMapLayer(fill, datasets).value;
    var b := GenerateMapLayer(line, datasets).value;
    var c := GenerateLabelLayer(fill, template).value;
    ScenarioAnchors(points);
    DataLayerIdIsLong(fill, datasets);
    DataLayerIdIsLong(line, datasets);
    ScenarioPlacements(x, l, y, a, b, c);
    TwoLayerLoops(points, datasets, template, [x, l, y], fill, line);
  }

  /** The three insertions of the scenario, composed. */
  lemma ScenarioPlacements(x: Layer, l: Layer, y: Layer, a: Layer, b: Layer, c: Layer)
    requires x.id == "X" && l.id == "L" && y.id == "Y" && a.id != "L" && a.id != "Y" && b.id != "Y"
    ensures InsertMapLayer(Some("Y"), InsertMapLayer(Some("L"), InsertMapLayer(Some("X"), [x, l, y], a), b), c)
      == [a, x, b, l, c, y]
  {
    ScenarioIdsDiffer();
    FillPlacement("X", x, l, y, a);
    LinePlacement("L", x, l, y, a, b);
    LabelPlacement("Y", x, l, y, a, b, c);
  }

  /** The same synthesis when the base style, X then Y, has no anchor for
      lines ({fill: "X", label: "Y"}): the line data layer is not appended
      but lands before the last layer, Y, and the label layer lands after it,
      again just before Y. */
  lemma GenerateMapStyleMissingAnchorScenario(basemap: Basemap, definition: MapDefinition, baseUrl: string, fill: MapLayer, line: MapLayer)
    requires |basemap.style.layers| == 2
    requires basemap.style.layers[0].id == "X" && basemap.style.layers[1].id == "Y"
    requires basemap.style.metadata.insertionPoints == Some(map["fill" := "X", "label" := "Y"])
    requires basemap.style.metadata.labelLayerStyle.Some?
    requires definition.layers == [fill, line]
    requires fill.layerType == "fill" && fill.labelAttribute != NullLabel
    requires line.layerType == "line" && line.labelAttribute == NullLabel
    requires GenerateMapLayer(fill, definition.datasets).Ok? && GenerateMapLayer(line, definition.datasets).Ok?
    ensures var r := GenerateMapStyle(basemap, definition, baseUrl);
      var base := basemap.style.layers;
      && r.Ok?
      && r.value.layers == [GenerateMapLayer(fill, definition.datasets).value, base[0],
                            GenerateMapLayer(line, definition.datasets).value,
                            GenerateLabelLayer(fill, basemap.style.metadata.labelLayerStyle.value).value, base[1]]
  {
    var template := basemap.style.metadata.labelLayerStyle.value;
    MissingAnchorScenarioLoops(basemap.style.metadata.insertionPoints.GetOr(map[]), definition.datasets, template,
      basemap.style.layers, definition.layers, fill, line);
    GenerateMapStyleLayerList(basemap, definition, baseUrl);
  }

  /** The two loops of the missing-anchor scenario over the base layers X, Y. */
  lemma MissingAnchorScenarioLoops(points: map<string, string>, datasets: seq<Dataset>, template: LabelLayerStyle, base: seq<Layer>, mapLayers: seq<MapLayer>, fill: MapLayer, line: MapLayer)
    requires points == map["fill" := "X", "label" := "Y"]
    requires |base| == 2 && base[0].id == "X" && base[1].id == "Y"
    requires mapLayers == [fill, line]
    requires fill.layerType == "fill" && fill.labelAttribute != NullLabel
    requires line.layerType == "line" && line.labelAttribute == NullLabel
    requires GenerateMapLayer(fill, datasets).Ok? && GenerateMapLayer(line, datasets).Ok?
    ensures DataLayers(mapLayers, datasets).Ok?
    ensures InsertLabelLayers(AnchorFor(points, "label"), template,
                              InsertDataLayers(points, datasets, base, mapLayers).value, LabelledLayers(mapLayers))
      == [GenerateMapLayer(fill, datasets).value, base[0], GenerateMapLayer(line, datasets).value,
          GenerateLabelLayer(fill, template).value, base[1]]
  {
    var x, y := base[0], base[1];
    ListOfTwo(base);
    var a := GenerateMapLayer(fill, datasets).value;
    var b := GenerateMapLayer(line, datasets).value;
    var c := GenerateLabelLayer(fill, template).value;
    MissingAnchorScenarioAnchors(points);
    DataLayerIdIsLong(fill, datasets);
    DataLayerIdIsLong(line, datasets);
    MissingAnchorPlacement(x, y, a, b, c);
    assert InsertMapLayer(Some("Y"), InsertMapLayer(None, InsertMapLayer(Some("X"), [x, y], a), b), c) == [a, x, b, c, y];
    TwoLayerLoops(points, datasets, template, [x, y], fill, line);
  }

  /** Both loops over two map layers, the first labelled and the second not:
      three insertions, the fill data layer, the line data layer, then the
      fill layer's label layer. */
  lemma TwoLayerLoops(points: map<string, string>, datasets: seq<Dataset>, template: LabelLayerStyle, layers: seq<Layer>, fill: MapLayer, line: MapLayer)
    requires GenerateMapLayer(fill, datasets).Ok? && GenerateMapLayer(line, datasets).Ok?
    requires fill.labelAttribute != NullLabel && line.labelAttribute == NullLabel
    ensures DataLayers([fill, line], datasets).Ok?
    ensures InsertLabelLayers(AnchorFor(points, "label"), template,
                              InsertDataLayers(points, datasets, layers, [fill, line]).value, LabelledLayers([fill, line]))
      == InsertMapLayer(AnchorFor(points, "label"),
           InsertMapLayer(AnchorFor(points, line.layerType),
             InsertMapLayer(AnchorFor(points, fill.layerType), layers, GenerateMapLayer(fill, datasets).value),
             GenerateMapLayer(line, datasets).value),
           GenerateLabelLayer(fill, template).value)
  {
    TwoDataLayers(points, datasets, layers, fill, line);
    var withData := InsertDataLayers(points, datasets, layers, [fill, line]).value;
    LabelLayerStep(AnchorFor(points, "label"), template, withData, fill, []);
    assert [fill] + [] == [fill];
  }

  /** The data-layer loop over two map layers, the first labelled and the
      second not. */
  lemma TwoDataLayers(points: map<string, string>, datasets: seq<Dataset>, layers: seq<Layer>, fill: MapLayer, line: MapLayer)
    requires GenerateMapLayer(fill, datasets).Ok? && GenerateMapLayer(line, datasets).Ok?
    requires fill.labelAttribute != NullLabel && line.labelAttribute == NullLabel
    ensures DataLayers([fill, line], datasets).Ok?
    ensures InsertDataLayers(points, datasets, layers, [fill, line])
      == Ok(InsertMapLayer(AnchorFor(points, line.layerType),
                           InsertMapLayer(AnchorFor(points, fill.layerType), layers, GenerateMapLayer(fill, datasets).value),
                           GenerateMapLayer(line, datasets).value))
    ensures LabelledLayers([fill, line]) == [fill]
  {
    var a := GenerateMapLayer(fill, datasets).value;
    DataLayerStep(points, datasets, layers, fill, [line]);
    DataLayerStep(points, datasets, InsertMapLayer(AnchorFor(points, fill.layerType), layers, a), line, []);
    assert [fill, line][1..] == [line];
  }

  /** One turn of the data-layer loop. */
  lemma DataLayerStep(points: map<string, string>, datasets: seq<Dataset>, layers: seq<Layer>, m: MapLayer, rest: seq<MapLayer>)
    requires GenerateMapLayer(m, datasets).Ok?
    ensures InsertDataLayers(points, datasets, layers, [m] + rest)
      == InsertDataLayers(points, datasets, InsertMapLayer(AnchorFor(points, m.layerType), layers, GenerateMapLayer(m, datasets).value), rest)
  {
    assert ([m] + rest)[1..] == rest;
  }

  /** One turn of the label-layer loop. */
  lemma LabelLayerStep(anchor: Option<string>, template: LabelLayerStyle, layers: seq<Layer>, m: MapLayer, rest: seq<MapLayer>)
    requires m.labelAttribute != NullLabel
    requires AllLabelled(rest)
    ensures InsertLabelLayers(anchor, template, layers, [m] + rest)
      == InsertLabelLayers(anchor, template, InsertMapLayer(anchor, layers, GenerateLabelLayer(m, template).value), rest)
  {
    assert ([m] + rest)[1..] == rest;
  }

  /** The layer list of a successful synthesis is the label-layer loop run
      over the result of the data-layer loop. */
  lemma GenerateMapStyleLayerList(basemap: Basemap, definition: MapDefinition, baseUrl: string)
    requires basemap.style.metadata.labelLayerStyle.Some?
    requires DataLayers(definition.layers, definition.datasets).Ok?
    ensures var points := basemap.style.metadata.insertionPoints.GetOr(map[]);
      var r := GenerateMapStyle(basemap, definition, baseUrl);
      && r.Ok?
      && r.value.layers == InsertLabelLayers(AnchorFor(points, "label"), basemap.style.metadata.labelLayerStyle.value,
           InsertDataLayers(points, definition.datasets, basemap.style.layers, definition.layers).value,
           LabelledLayers(definition.layers))
  {
  }

  lemma ListOfThree(s: seq<Layer>)
    requires |s| == 3
    ensures s == [s[0], s[1], s[2]]
  {
  }

  lemma ListOfTwo(s: seq<Layer>)
    requires |s| == 2
    ensures s == [s[0], s[1]]
  {
  }

  /** The anchors of the scenario's insertion points. */
  lemma ScenarioAnchors(points: map<string, string>)
    requires points == map["fill" := "X", "line" := "L", "label" := "Y"]
    ensures AnchorFor(points, "fill") == Some("X") && AnchorFor(points, "line") == Some("L") && AnchorFor(points, "label") == Some("Y")
  {
  }

  /** The anchors of the missing-anchor scenario's insertion points. */
  lemma MissingAnchorScenarioAnchors(points: map<string, string>)
    requires points == map["fill" := "X", "label" := "Y"]
    ensures AnchorFor(points, "fill") == Some("X") && AnchorFor(points, "line") == None && AnchorFor(points, "label") == Some("Y")
  {
  }

  /** A data layer id is longer than a one-letter anchor id. */
  lemma DataLayerIdIsLong(m: MapLayer, datasets: seq<Dataset>)
    requires GenerateMapLayer(m, datasets).Ok?
    ensures |GenerateMapLayer(m, datasets).value.id| > 1
  {
  }

  /** The three insertions of the scenario, for any layers with other ids. */
  lemma FillPlacement(anchor: string, x: Layer, l: Layer, y: Layer, a: Layer)
    requires x.id == anchor
    ensures InsertMapLayer(Some(anchor), [x, l, y], a) == [a, x, l, y]
  {
    InsertAtFront(anchor, [x, l, y], a);
    JoinAtFront(a, x, l, y);
  }

  lemma LinePlacement(anchor: string, x: Layer, l: Layer, y: Layer, a: Layer, b: Layer)
    requires l.id == anchor && x.id != anchor && a.id != anchor
    ensures InsertMapLayer(Some(anchor), [a, x, l, y], b) == [a, x, b, l, y]
  {
    var p := [a, x];
    assert p[0] == a && p[1] == x;
    InsertBeforeAnchor(anchor, p, [l, y], b);
    JoinTwo(a, x, l, y, b);
  }

  lemma LabelPlacement(anchor: string, x: Layer, l: Layer, y: Layer, a: Layer, b: Layer, c: Layer)
    requires y.id == anchor && x.id != anchor && l.id != anchor && a.id != anchor && b.id != anchor
    ensures InsertMapLayer(Some(anchor), [a, x, b, l, y], c) == [a, x, b, l, c, y]
  {
    var p := [a, x, b, l];
    assert p[0] == a && p[1] == x && p[2] == b && p[3] == l;
    InsertBeforeAnchor(anchor, p, [y], c);
    JoinFour(a, x, b, l, y, c);
  }

  /** The list literals the placements split at. */
  lemma JoinAtFront(a: Layer, x: Layer, l: Layer, y: Layer)
    ensures [a] + [x, l, y] == [a, x, l, y]
    ensures [a] + [x, y] == [a, x, y]
  {
  }

  lemma JoinTwo(a: Layer, x: Layer, l: Layer, y: Layer, b: Layer)
    ensures [a, x] + [l, y] == [a, x, l, y]
    ensures [a, x] + [b] + [l, y] == [a, x, b, l, y]
  {
  }

  lemma JoinThree(a: Layer, x: Layer, b: Layer, y: Layer, c: Layer)
    ensures [a, x, b] + [y] == [a, x, b, y]
    ensures [a, x, b] + [c] + [y] == [a, x, b, c, y]
  {
  }

  lemma JoinFour(a: Layer, x: Layer, b: Layer, l: Layer, y: Layer, c: Layer)
    ensures [a, x, b, l] + [y] == [a, x, b, l, y]
    ensures [a, x, b, l] + [c] + [y] == [a, x, b, l, c, y]
  {
  }

  /** The three one-letter anchor ids differ. */
  lemma ScenarioIdsDiffer()
    ensures "X" != "L" && "X" != "Y" && "L" != "Y"
  {
    assert "X"[0] != "L"[0] && "X"[0] != "Y"[0] && "L"[0] != "Y"[0];
  }

  /** The three insertions of the missing-anchor scenario. */
  lemma MissingAnchorPlacement(x: Layer, y: Layer, a: Layer, b: Layer, c: Layer)
    requires x.id == "X" && y.id == "Y" && a.id != "Y" && b.id != "Y"
    ensures InsertMapLayer(Some("X"), [x, y], a) == [a, x, y]
    ensures InsertMapLayer(None, [a, x, y], b) == [a, x, b, y]
    ensures InsertMapLayer(Some("Y"), [a, x, b, y], c) == [a, x, b, c, y]
  {
    ScenarioIdsDiffer();
    MissingFillPlacement("X", x, y, a);
    MissingLinePlacement(x, y, a, b);
    MissingAnchorLabelPlacement("Y", x, y, a, b, c);
  }

  lemma MissingFillPlacement(anchor: string, x: Layer, y: Layer, a: Layer)
    requires x.id == anchor
    ensures InsertMapLayer(Some(anchor), [x, y], a) == [a, x, y]
  {
    InsertAtFront(anchor, [x, y], a);
    JoinAtFront(a, x, x, y);
  }

  lemma MissingLinePlacement(x: Layer, y: Layer, a: Layer, b: Layer)
    ensures InsertMapLayer(None, [a, x, y], b) == [a, x, b, y]
  {
    var s := [a, x, y];
    assert AnchorIndex(s, None) == -1;
    assert s[..2] == [a, x] && s[2..] == [y];
  }

  lemma MissingAnchorLabelPlacement(anchor: string, x: Layer, y: Layer, a: Layer, b: Layer, c: Layer)
    requires y.id == anchor && x.id != anchor && a.id != anchor && b.id != anchor
    ensures InsertMapLayer(Some(anchor), [a, x, b, y], c) == [a, x, b, c, y]
  {
    var p := [a, x, b];
    assert p[0] == a && p[1] == x && p[2] == b;
    InsertBeforeAnchor(anchor, p, [y], c);
    JoinThree(a, x, b, y, c);
  }
}

=== FILE: style-types.dfy ===
/** The data model of the style generator: the inputs (base map, map
    definition, datasets) and the renderer style document it produces.

    JSON objects with a fixed set of keys are datatypes; open-ended objects
    (the label template's layout and paint, the extra properties of a source
    or of a base-style layer) are maps from key to `Value`. */
module StyleTypes {
  import opened Results

  /** Source-layer name every generated layer reads from. */
  const DATA_LAYER_ID: string := "data"
  const DATA_LAYER_PREFIX: string := "datalayer-"
  const LABEL_LAYER_PREFIX: string := "labellayer-"

  const MIN_POINT_RADIUS: real := 3.0
  const MAX_POINT_RADIUS: real := 20.0

  /** A JSON value as it appears inside an expression or a layout block;
      `Undefined` is JavaScript's `undefined` (an array hole). */
  datatype Value = Undefined | Num(n: real) | Str(s: string) | Arr(items: seq<Value>)

  /** The input of an interpolation: `["get", field]` or `["zoom"]`. */
  datatype Input = GetAttribute(field: string) | Zoom

  /** A data-driven paint value: `["interpolate", ["linear"], input, ...stops]`,
      where `stops` is the flat list `in0, out0, in1, out1, ...`, or a constant. */
  datatype Ramp = Interpolate(input: Input, stops: seq<Value>) | Literal(value: Value)

  /** A legacy zoom function `{base, stops: [[zoom, value], ...]}`. */
  datatype ZoomFunction = ZoomFunction(base: real, stops: seq<(real, real)>)

  /** The paint block of a data layer, one variant per supported layer type. */
  datatype Paint =
    | FillPaint(fillColor: Ramp, fillOutlineColor: string, fillOpacity: Ramp)
    | CirclePaint(circleColor: Ramp, circleRadius: Ramp, circleOpacity: Ramp)
    | LinePaint(lineColor: Ramp, lineWidth: ZoomFunction, lineOpacity: Ramp)

  /** A layer filter `["has", field]`. */
  datatype Filter = Has(field: string)

  /** A layer of the style document: one inherited from the base style (only
      its id matters here), a generated data layer, or a generated label layer. */
  datatype Layer =
    | BaseLayer(id: string, properties: map<string, Value>)
    | DataLayer(id: string, source: string, sourceLayer: string, layerType: string,
                minzoom: real, maxzoom: real, paint: Option<Paint>, filter: Filter)
    | LabelLayer(id: string, layout: map<string, Value>, labelPaint: map<string, Value>,
                 source: string, sourceLayer: string, layerType: string, filter: Filter)

  /** A source declaration; `url`, `tiles` and `data` are the fields that may
      hold relative URLs, `other` holds every remaining property. */
  datatype Source = Source(kind: string, url: Option<string>, tiles: Option<seq<string>>,
                           data: Option<string>, other: map<string, Value>)

  datatype Attribute = Attribute(field: string, quantiles5: Option<seq<real>>)

  datatype Dataset = Dataset(id: string, minZoom: real, maxZoom: real, dataAttributes: seq<Attribute>)

  /** A layer's `labelAttribute`: `null`, `undefined`, or a field name. */
  datatype LabelAttribute = NullLabel | UndefinedLabel | LabelField(field: string)

  datatype MapLayer = MapLayer(
    layerId: string,
    datasetId: string,
    datasetAttribute: string,
    layerType: string,
    palette: seq<string>,          // the palette's colour stops
    paletteInverted: bool,
    opacity: Option<real>,
    labelAttribute: LabelAttribute)

  datatype MapDefinition = MapDefinition(
    zoom: Option<real>,
    center: Option<(real, real)>,
    layers: seq<MapLayer>,
    datasets: seq<Dataset>)

  /** The shared template of every label layer. */
  datatype LabelLayerStyle = LabelLayerStyle(layout: map<string, Value>, paint: map<string, Value>)

  datatype Metadata = Metadata(
    insertionPoints: Option<map<string, string>>,
    labelLayerStyle: Option<LabelLayerStyle>,
    mapDefinition: Option<MapDefinition>)

  datatype Style = Style(
    zoom: Option<real>,
    center: Option<(real, real)>,
    sources: map<string, Source>,
    layers: seq<Layer>,
    metadata: Metadata)

  datatype Basemap = Basemap(name: string, style: Style)
}

=== FILE: tile-urls.dfy ===
/** Expansion of relative resource URLs in source declarations
    (`expandTileSources`, `expandRelativeTileURL`). */
module TileUrls {
  import opened Results
  import opened StyleTypes

  predicate StartsWith(s: string, prefix: string) {
    |prefix| <= |s| && s[..|prefix|] == prefix
  }

  /** A URL counts as absolute when it starts with the four letters "http". */
  predicate IsAbsolute(url: string) {
    StartsWith(url, "http")
  }

  /** An absolute URL is kept; any other is appended to the base URL verbatim,
      with no separator inserted or removed. */
  function ExpandRelativeTileUrl(baseUrl: string, url: string): (r: string)
    ensures IsAbsolute(url) ==> r == url
    ensures !IsAbsolute(url) ==> |r| == |baseUrl| + |url| && r[..|baseUrl|] == baseUrl
    ensures r[|r| - |url|..] == url
  {
    if IsAbsolute(url) then url else baseUrl + url
  }

  /** Expansion is idempotent on absolute URLs. */
  lemma ExpandAbsoluteIdempotent(baseUrl: string, url: string)
    requires IsAbsolute(url)
    ensures ExpandRelativeTileUrl(baseUrl, ExpandRelativeTileUrl(baseUrl, url)) == url
  {
  }

  lemma PrefixedIsAbsolute(baseUrl: string, url: string)
    requires IsAbsolute(baseUrl)
    ensures IsAbsolute(baseUrl + url)
  {
    assert (baseUrl + url)[..4] == baseUrl[..4];
  }

  /** With an absolute base URL every expanded URL is absolute, so expanding
      twice is the same as expanding once. */
  lemma ExpandIdempotentUnderAbsoluteBase(baseUrl: string, url: string)
    requires IsAbsolute(baseUrl)
    ensures IsAbsolute(ExpandRelativeTileUrl(baseUrl, url))
    ensures ExpandRelativeTileUrl(baseUrl, ExpandRelativeTileUrl(baseUrl, url)) == ExpandRelativeTileUrl(baseUrl, url)
  {
    if !IsAbsolute(url) {
      PrefixedIsAbsolute(baseUrl, url);
    }
  }

  /** With a relative base URL, a relative URL is prefixed again on a second
      expansion: expansion is not idempotent in general. */
  lemma ExpandTwiceRelative(baseUrl: string, url: string)
    requires !IsAbsolute(url) && !IsAbsolute(baseUrl + url)
    ensures ExpandRelativeTileUrl(baseUrl, ExpandRelativeTileUrl(baseUrl, url)) == baseUrl + baseUrl + url
  {
  }

  /** `tiles.map(expandRelativeTileURL)`. */
  function ExpandAll(baseUrl: string, urls: seq<string>): (r: seq<string>)
    ensures |r| == |urls|
    ensures forall i :: 0 <= i < |urls| ==> r[i] == ExpandRelativeTileUrl(baseUrl, urls[i])
  {
    if |urls| == 0 then []
    else [ExpandRelativeTileUrl(baseUrl, urls[0])] + ExpandAll(baseUrl, urls[1..])
  }

  /** One source with its `url`, each of its `tiles` and its `data` expanded. */
  function ExpandSource(baseUrl: string, source: Source): (r: Source)
    ensures r.kind == source.kind && r.other == source.other
    ensures r.url.Some? == source.url.Some? && r.tiles.Some? == source.tiles.Some? && r.data.Some? == source.data.Some?
    ensures source.url.Some? ==> r.url.value == ExpandRelativeTileUrl(baseUrl, source.url.value)
    ensures source.data.Some? ==> r.data.value == ExpandRelativeTileUrl(baseUrl, source.data.value)
    ensures source.tiles.Some? ==> r.tiles.value == ExpandAll(baseUrl, source.tiles.value)
  {
    var withUrl := if source.url.Some? then source.(url := Some(ExpandRelativeTileUrl(baseUrl, source.url.value))) else source;
    var withTiles := if withUrl.tiles.Some? then withUrl.(tiles := Some(ExpandAll(baseUrl, withUrl.tiles.value))) else withUrl;
    if withTiles.data.Some? then withTiles.(data := Some(ExpandRelativeTileUrl(baseUrl, withTiles.data.value))) else withTiles
  }

  /** Every source of the mapping expanded, under the same key. */
  function ExpandTileSources(baseUrl: string, sources: map<string, Source>): (r: map<string, Source>)
    ensures r.Keys == sources.Keys
    ensures forall k :: k in sources ==> r[k].kind == sources[k].kind && r[k].other == sources[k].other
    ensures forall k :: k in sources && sources[k].url.Some? ==> r[k].url == Some(ExpandRelativeTileUrl(baseUrl, sources[k].url.value))
    ensures forall k :: k in sources && sources[k].data.Some? ==> r[k].data == Some(ExpandRelativeTileUrl(baseUrl, sources[k].data.value))
    ensures forall k :: k in sources && sources[k].url.None? ==> r[k].url.None?
    ensures forall k :: k in sources && sources[k].data.None? ==> r[k].data.None?
    ensures forall k :: k in sources && sources[k].tiles.Some? ==> r[k].tiles == Some(ExpandAll(baseUrl, sources[k].tiles.value))
    ensures forall k :: k in sources && sources[k].tiles.None? ==> r[k].tiles.None?
  {
    map k | k in sources :: ExpandSource(baseUrl, sources[k])
  }

  lemma {:induction false} ExpandAllIdempotent(baseUrl: string, urls: seq<string>)
    requires IsAbsolute(baseUrl)
    ensures ExpandAll(baseUrl, ExpandAll(baseUrl, urls)) == ExpandAll(baseUrl, urls)
  {
    if |urls| > 0 {
      ExpandIdempotentUnderAbsoluteBase(baseUrl, urls[0]);
      ExpandAllIdempotent(baseUrl, urls[1..]);
      assert ExpandAll(baseUrl, urls)[1..] == ExpandAll(baseUrl, urls[1..]);
    }
  }

  /** With an absolute base URL, expanding the sources a second time changes
      nothing. */
  lemma ExpandTileSourcesIdempotent(baseUrl: string, sources: map<string, Source>)
    requires IsAbsolute(baseUrl)
    ensures ExpandTileSources(baseUrl, ExpandTileSources(baseUrl, sources)) == ExpandTileSources(baseUrl, sources)
  {
    var once := ExpandTileSources(baseUrl, sources);
    forall k | k in sources
      ensures ExpandSource(baseUrl, once[k]) == once[k]
    {
      var s := sources[k];
      if s.url.Some? {
        ExpandIdempotentUnderAbsoluteBase(baseUrl, s.url.value);
      }
      if s.data.Some? {
        ExpandIdempotentUnderAbsoluteBase(baseUrl, s.data.value);
      }
      if s.tiles.Some? {
        ExpandAllIdempotent(baseUrl, s.tiles.value);
      }
    }
  }
}
